=== FILE: README.md ===
# md2docx list, task-list and preview logic in Dafny

md2docx turns Markdown into Word documents. This project models four parts of it as pure functions over immutable data and proves properties of them.

- **The list-item converter** (`ListConverter` in `src/md2docx/converter/elements/list.py`). It takes one call per list item, with an open token and a content token.
  - It derives the nesting level and the ordered/bullet kind.
  - It decides whether ordered numbering restarts.
  - It updates the per-level counters and the stack of open list frames.
  - It registers the list style.
  - It appends one paragraph. That paragraph carries a style name, a numbering reference for ordered items, a hanging indent and the item's styled runs.
  
  The session state (`_current_lists`, `_current_numbers`, `_last_token_type`) is the `ListState` datatype. The converter is a step function from state to state. Every reachable state keeps the frame levels strictly increasing and the counters positive.
- **The task-list converter** (`TaskListConverter` in `src/mddocx/converter/elements/task_list.py`). It recognises a leading `[ ]` / `[x]` marker, removes it and prefixes the text with a ballot-box glyph. It uses the same level-to-indent rule as ordinary list items. `_add_checkbox` is also modelled.
- **The web preview** (`generate_preview_html` in `webui/app.py`). It renders each stripped, non-blank Markdown line as one line of HTML, chosen by the line's prefix.
- **The browser helpers of the upload page** (`webui/static/js/app.js`):
  - `escapeHtml`;
  - the `isTextFile` test;
  - the 16 MiB size check of `validateForm`.

Layout, one module per file:

| file | module | contents |
|---|---|---|
| `wrappers.dfy` | `Wrappers` | `Option` and `Result` |
| `text.dfy` | `Text` | Python/JavaScript string built-ins: `isspace`, `strip`, `split`/`join`, `str(int)`, `toLowerCase` |
| `doc_model.dfy` | `DocModel` | tokens, runs, paragraphs, documents, and indentation in twips (360 twips = 0.25 in) |
| `inline_runs.dfy` | `InlineRuns` | the loop that folds an item's inline children into runs |
| `list_state.dfy` | `ListState` | the restart decision, counters and frame stack |
| `list_converter.dfy` | `ListConverter` | one converter call and sequences of calls |
| `task_list.dfy` | `TaskList` | the task-list converter and `_add_checkbox` |
| `preview.dfy` | `Preview` | `generate_preview_html` |
| `client_helpers.dfy` | `ClientHelpers` | `escapeHtml`, `isTextFile`, the upload size bound |

Behaviours of the code a reader may not expect:

- **Task markers.** Only a lower-case `x` marks a task as checked; `[X]` is not a marker. A task item without a marker still becomes a glyph paragraph holding its text verbatim. It is not handed back to the list converter.
- **Inline children.** The list converter's inline loop handles only these child kinds:
  - `text`;
  - the strong/em/s open and close tokens;
  - `softbreak`.
  
  Inline code, hard breaks, images and inline HTML are dropped from list items. A link keeps its text, which arrives as an ordinary `text` child, and loses its target. None of these becomes a separate run.

## Model

| member | source | states |
|---|---|---|
| ListConverter.ListInfo | src/md2docx/converter/elements/list.py:304-317 | level ≥ 1; ordered iff the type is `ordered_list_open`; level 1 without a type or without content; otherwise the level is the one with 2(level−1) ≤ indent < 2·level |
| ListConverter.ListInfoExample | src/md2docx/converter/elements/list.py:304-317 | four spaces of indent on an ordered token give (3, ordered); a token without a type gives (1, bullet) even with indentation |
| ListState.NeedsRestart | src/md2docx/converter/elements/list.py:221-236 | a bullet item never restarts; an ordered item restarts when its level is above 1, when the stack is empty, or right after a `heading_close` |
| ListState.ScanRestart | src/md2docx/converter/elements/list.py:238-253 | the top-down stack scan continues numbering iff some frame of the same level and kind has only deeper frames above it |
| ListState.ScanRestartOnIncreasing | src/md2docx/converter/elements/list.py:238-253 | on a stack with increasing levels, numbering continues iff a frame of the same level and kind is open |
| ListState.TopLevelRestart | src/md2docx/converter/elements/list.py:230-253 | on a valid state, an ordered level-1 item continues numbering iff the bottom frame is an ordered level-1 frame and the last type is not a heading close |
| ListState.UpdateNumbers | src/md2docx/converter/elements/list.py:65-72 | a restart sets the level's counter to 1; an ordered continuation increments it or starts it at 1; a bullet item changes nothing; no other level's counter changes; counters stay positive |
| ListState.PopDeeper | src/md2docx/converter/elements/list.py:266-267 | the result is a prefix of the stack, every frame removed is deeper than the level, and the new top is not deeper |
| ListState.UpdateFrames | src/md2docx/converter/elements/list.py:266-274 | the stack grows by at most one; the top is the item's (level, ordered, numId) frame; the frames below it are unchanged; increasing and positive levels are preserved |
| ListState.UpdateFramesKeepsShallower | src/md2docx/converter/elements/list.py:266-274 | on an increasing stack, the update keeps exactly the frames shallower than the item, in order, and puts the item's frame on top |
| ListState.DepthBound | src/md2docx/converter/elements/list.py:266-274 | a stack with increasing positive levels is never deeper than the level of its top frame |
| ListConverter.StyleName | src/md2docx/converter/elements/list.py:319-330 | the style name starts with `List Number` or `List Bullet` by kind; it is that bare base name iff the level is 1; below level 1 a space follows the base name and the rest is decimal digits that read back as the level |
| ListConverter.StyleNameInjective | src/md2docx/converter/elements/list.py:319-330 | different (level, kind) pairs get different style names |
| ListConverter.EnsureStyle | src/md2docx/converter/elements/list.py:350-359 | afterwards the style set is the old set with the name in it, whether or not it was there before, and the paragraphs are untouched |
| DocModel.LevelOfIndent | src/md2docx/converter/elements/list.py:314-315 | level ≥ 1 and 2(level−1) ≤ indent length < 2·level, i.e. integer division by 2 plus 1 |
| DocModel.ApplyIndents | src/md2docx/converter/elements/list.py:94-126 | a sequence of indent writes leaves style, numbering and runs alone; the final write sets its own indent; when some write sets the left indent it ends set, and when none does it keeps its value |
| DocModel.LastLeftWins | src/md2docx/converter/elements/list.py:94-126 | the left indent ends as the last write to it set it, whatever writes to the first-line indent follow |
| DocModel.LastFirstLineWins | src/md2docx/converter/elements/list.py:94-126 | the first-line indent ends as the last write to it set it, whatever writes to the left indent follow |
| DocModel.FirstLineKept | src/md2docx/converter/elements/list.py:94-126 | writes to the left indent alone leave the first-line indent as it was |
| DocModel.HangingIndentWins | src/md2docx/converter/elements/list.py:123-126 | whatever was written before, the final writes leave left indent 360·(level−1) twips and first line −360 twips |
| InlineRuns.NormalizeText | src/md2docx/converter/elements/list.py:166-171 | newlines become spaces, other characters are kept in place, and the text shrinks by one character iff it ends in a space or newline |
| InlineRuns.FlagsAfterChildren | src/md2docx/converter/elements/list.py:172-201 | after the loop, bold (italic, strike) is set iff the last `strong` (`em`, `s`) open or close child was the open one, or no such child occurred and the flag was set at the start |
| InlineRuns.BuildRuns | src/md2docx/converter/elements/list.py:164-207 | the runs are the stretch-by-stretch reading `Segments`: each maximal toggle-free stretch whose text is non-empty gives one run with the flags in force, so runs are cut at every toggle with text pending and nowhere else; read character by character they are exactly the children's text, each character carrying the flags in force when it was read; no run is empty; there is at most one more run than toggle children |
| InlineRuns.EmptyBoldCuts | src/md2docx/converter/elements/list.py:172-181 | an empty bold span between two letters still flushes: two plain runs, not one merged run |
| InlineRuns.UntoggledIsOneRun | src/md2docx/converter/elements/list.py:165-207 | children without toggles give one plain run of all their text, or none when that text is empty |
| InlineRuns.BoldInTheMiddle | src/md2docx/converter/elements/list.py:165-207 | text, bold text, text (each one character other than a space or line feed) gives exactly three runs: plain, bold and plain |
| ListConverter.ItemRuns | src/md2docx/converter/elements/list.py:129-207 | stripped content starting with `[ ] ` or `[x] ` gives no runs; a childless item gives one plain run of its stripped content, or an empty run without string content; otherwise the runs are the stretch-by-stretch reading of the children, match the character-by-character reading, and none is empty |
| ListConverter.ItemParagraph | src/md2docx/converter/elements/list.py:90-126 | the paragraph has the level's style; it has a numbering reference (1, level−1) iff the item is ordered; left indent 360·(level−1), first line −360; and the item's runs |
| ListConverter.NextState | src/md2docx/converter/elements/list.py:59-88 | the last type becomes the item's type, the counters and frames follow the restart decision, the item's frame is on top, and validity is preserved |
| ListConverter.Convert | src/md2docx/converter/elements/list.py:41-209 | no document fails with `DocumentNotSet`; an open token without a type fails with `MissingType`; otherwise exactly one paragraph is appended, the item's style is registered, and the state advances |
| ListConverter.MissingTypeLeavesNoTrace | src/md2docx/converter/elements/list.py:59-75 | a token without a type counts as a level-1 bullet, so the counters are untouched when its type read fails |
| ListConverter.AfterTopOrdered | src/md2docx/converter/elements/list.py:59-88 | after an ordered level-1 item the stack is a single ordered level-1 frame, its counter exists, and the state stays valid |
| ListConverter.ConsecutiveTopOrdered | src/md2docx/converter/elements/list.py:65-72 | a further ordered level-1 item in the same list increments the level-1 counter by one |
| ListConverter.NestedOrderedStartsAtOne | src/md2docx/converter/elements/list.py:225-228 | an ordered item at level above 1 sets its counter to 1 |
| ListConverter.HeadingCloseRestarts | src/md2docx/converter/elements/list.py:234-236 | after a type ending in `heading_close`, an ordered level-1 item restarts at 1 |
| ListConverter.StateAfter | src/md2docx/converter/elements/list.py:59-88 | validity is preserved along any sequence of calls |
| ListConverter.ConvertItems | src/md2docx/converter/elements/list.py:41-209 | a sequence of calls appends at most one paragraph per item, keeps the existing paragraphs, and ends in the state that depends only on the open tokens |
| ListConverter.ContinueStep | src/md2docx/converter/elements/list.py:59-88 | inside a top-level ordered list, an ordered level-1 item keeps the single ordered level-1 frame and raises the level-1 counter by one |
| ListConverter.FreshStep | src/md2docx/converter/elements/list.py:230-232 | with no list open, an ordered level-1 item opens a single ordered level-1 frame with counter 1 |
| ListConverter.TopOrderedContinue | src/md2docx/converter/elements/list.py:65-72 | inside a top-level ordered list, n more ordered level-1 items raise the level-1 counter by n |
| ListConverter.TopOrderedFromFresh | src/md2docx/converter/elements/list.py:230-232 | from a state with no open lists, n ≥ 1 ordered level-1 items leave counter n and one ordered level-1 frame |
| TaskList.MatchMarker | src/mddocx/converter/elements/task_list.py:54-62 | a match is whitespace, `[`, a space or lower-case `x`, `]`, whitespace, not followed by more whitespace; checked iff the mark is `x` |
| TaskList.StripMarker | src/mddocx/converter/elements/task_list.py:60-65 | the result is a suffix of the content; without a match it is the content; with one, exactly the matched marker is removed and the rest does not start with whitespace |
| TaskList.MarkerRecognised | src/mddocx/converter/elements/task_list.py:54-63 | every such marker in front of text is matched, with the length that removes exactly the marker and its surrounding whitespace |
| TaskList.UpperCaseIsNoMarker | src/mddocx/converter/elements/task_list.py:54-62 | `[X] a` is not a marker, and leading and trailing whitespace around `[x]` is consumed |
| Text.SpaceEnd | src/mddocx/converter/elements/task_list.py:54 | the whitespace scan (`\s*`) stops at the first non-whitespace character or the end, after only whitespace |
| Text.SpaceEndAt | src/mddocx/converter/elements/task_list.py:54 | conversely, a whitespace stretch followed by non-whitespace or the end is exactly what the scan consumes |
| TaskList.FoldTaskChildrenMeaning | src/mddocx/converter/elements/task_list.py:69-89 | the children loop leaves the last checkbox's `checked` attribute (or the start value) and all other children's contents in order, each with its marker stripped |
| TaskList.TaskState | src/mddocx/converter/elements/task_list.py:56-89 | string content is matched against the marker and stripped of it or kept verbatim; only content tokens without string content use their children; no token gives unchecked empty text |
| TaskList.TaskLevel | src/mddocx/converter/elements/task_list.py:102-106 | level 1 without content, otherwise 2(level−1) ≤ indent < 2·level, whatever the token's type |
| TaskList.Convert | src/mddocx/converter/elements/task_list.py:40-115 | no document fails before anything is appended; otherwise one paragraph is appended holding one plain run of glyph plus text, with no style, no numbering, and the list indentation rule |
| TaskList.TaskMarkerReplaced | src/mddocx/converter/elements/task_list.py:54-99 | `[ ] text` and `[x] text` give the single run `☐ text` or `☑ text`: the marker is replaced by the matching glyph |
| TaskList.UpperCaseMarkerKept | src/mddocx/converter/elements/task_list.py:54-99 | `[X] a` gives `☐ [X] a`: the text is kept verbatim behind an unchecked box |
| TaskList.AddCheckbox | src/mddocx/converter/elements/task_list.py:117-140 | no paragraph gives no paragraph; otherwise `√ ` or `× ` is prefixed to the first run, an empty plain run is created when there is none, and every other run and field is kept |
| TaskList.AddCheckboxText | src/mddocx/converter/elements/task_list.py:130-140 | the paragraph's text becomes the prefix followed by its old text |
| Preview.GeneratePreviewHtml | webui/app.py:131-167 | splitting the output at newlines gives exactly one rendered line per stripped non-blank input line, in order; without such lines the output is empty |
| Preview.Kept | webui/app.py:138-141 | the lines kept are non-blank and no more than the input lines |
| Preview.RenderLineHasNoNewline | webui/app.py:143-165 | a rendered line never contains a newline, so each input line gives exactly one output line |
| Preview.HeadingLevelCountsHashes | webui/app.py:143-147 | k hashes, a space and a title give an `h`k element holding the stripped title |
| Preview.HeadingWithoutSpace | webui/app.py:145-147 | `#` glued to a word gives a heading whose level is the length of the whole word with its hash, holding the word |
| Preview.HeadingWithoutSpaceExample | webui/app.py:145-147 | `#Title` gives `<h6>Title</h6>` |
| Preview.BulletLine | webui/app.py:149-151 | `- ` or `* ` plus text gives `<li>` with the stripped text |
| Preview.OrderedLine | webui/app.py:153-155 | one digit, `. ` and text give `<li>` with the stripped text |
| Preview.TwoDigitsIsParagraph | webui/app.py:153-165 | `10. x` is not an ordered item and becomes a paragraph |
| Preview.InlineCodeLine | webui/app.py:157-159 | a line fenced by three backticks on both ends gives `<code>` with the text between the fences verbatim |
| Preview.FenceLine | webui/app.py:157-162 | three backticks followed by text without a backtick give `<pre><code>` |
| Preview.ParagraphLine | webui/app.py:164-165 | a line is wrapped in `<p>` verbatim, its markup unescaped, exactly when it starts with none of `#`, `- `, `* `, one digit followed by `. `, or three backticks |
| Preview.CodeLine | webui/app.py:157-162 | a line starting with three backticks gives `<code>` with the text between the first three and last three characters when three more backticks follow the opening ones, and `<pre><code>` otherwise |
| Text.SplitJoin | webui/app.py:135-167 | splitting a newline-join of newline-free lines gives the lines back |
| Text.Split | webui/app.py:135 | at least one part, no part contains the separator, and joining the parts gives the input back |
| Text.StripBounds | webui/app.py:140 | only whitespace lies outside the kept slice, and unless nothing is kept, the slice begins and ends with non-whitespace |
| Text.StripStripped | webui/app.py:140 | text that neither begins nor ends with whitespace is left unchanged |
| Text.StripAfterSpace | webui/app.py:140 | a leading whitespace character does not change the result |
| ClientHelpers.Entity | webui/static/js/app.js:228-238 | a special character becomes an entity starting with `&`; every other character is kept |
| ClientHelpers.EscapeHtml | webui/static/js/app.js:228-238 | the output is never shorter, decoding it gives the input back (so every other character is kept in order), it contains no `<`, `>`, `"` or `'`, and every `&` in it starts one of the five entities |
| ClientHelpers.EscapeLength | webui/static/js/app.js:228-238 | the length is kept iff none of the five characters occurs, and then the text is unchanged |
| ClientHelpers.EscapeTwice | webui/static/js/app.js:228-238 | escaping twice equals escaping once iff the text has none of the five characters |
| ClientHelpers.EscapeTwiceExample | webui/static/js/app.js:228-238 | `<` escapes to `&lt;`, which escapes again to `&amp;lt;` |
| ClientHelpers.IsTextFile | webui/static/js/app.js:170-187 | a file is a text file iff its MIME type is one of the three text types or its name ends in `.md`, `.markdown` or `.txt` with ASCII letters compared without case |
| ClientHelpers.IsTextFileCaseInsensitive | webui/static/js/app.js:170-187 | the extension test ignores the name's letter case, and the three text MIME types are accepted whatever the name |
| ClientHelpers.AcceptedEnding | webui/static/js/app.js:181-186 | a name whose ending is accepted is accepted whatever precedes that ending |
| ClientHelpers.UpperCaseExtension | webui/static/js/app.js:181-186 | any name ending in `.MD` is a text file whatever its MIME type |
| ClientHelpers.LongerExtension | webui/static/js/app.js:181-186 | a name ending in `.mdx` is refused unless the MIME type is a text type |
| ClientHelpers.MimeCaseMatters | webui/static/js/app.js:171-180 | `TEXT/PLAIN` and `TEXT/MARKDOWN` are not text MIME types |
| ClientHelpers.ValidateFileSize | webui/static/js/app.js:84-95 | the size check passes iff no file is chosen or the file has at most 16 777 216 bytes |
| ClientHelpers.FileSizeBoundary | webui/static/js/app.js:84-95 | exactly 16 MiB passes, one byte more fails, anything smaller than a passing size passes, and a size passes iff it is at most 16 MiB |

## Left out

- python-docx: creating style objects with font sizes, spacing and alignment, the `numPr`/`ind` XML plumbing, and the strike-through XML element. Paragraphs and runs are plain records, a style is a name in a set, and indentation is a sequence of writes.
- Floating-point inches. Indentation is integer twips, 360 per 0.25 in.
- The Python `re` engine. The task marker pattern is written out as a whitespace scan followed by three fixed characters.
- Debug output, and the `try`/`except` blocks that swallow errors: numbering assignment in list.py and the non-string content paths in task_list.py. Content is always a string or absent.
- `hasattr`: the top-level tokens have optional `type`, `content` and `children` fields, and absence is modelled as `None`. Inline child tokens always have a kind, content and attributes.
- TaskList.TaskState: a `content` attribute that exists but holds `None` is modelled as absent, so the children are used. The source takes the `TypeError` path there and gives empty text.
- `_numbering_cache`, which is never used. `_current_numbers` is modelled although nothing reads it for output.
- The attribute values of a checkbox child are modelled as booleans, standing for their truthiness.
- Preview.RenderLine: a digit is an ASCII digit. Python's `isdigit` also accepts other Unicode digits.
- ClientHelpers.IsTextFile: letter case is folded for ASCII letters only.
- The required-field check of `validateForm`, all DOM, event, fetch, timer and clipboard code, `formatFileSize` (floating point), and the file preview truncation.
- The copy of `app.js` under `src/md2docx/webui`. Its `escapeHtml` and `isTextFile` are identical to the ones modelled.
- Flask routes, error handlers, configuration and start scripts. The command-line tools and batch scripts are file I/O.
- The Markdown tokenizer, the base dispatcher and the converters for text, tables, blockquotes, headings, images, links, HTML and rules. The tokenizer's output is the model's input.
- `mddocx`'s own `list.py` is not part of this model. The task-list converter imports that `ListConverter` but computes the level itself with the same rule (`src/mddocx/converter/elements/task_list.py`, lines 103-106); the model shares the rule as `DocModel.LevelOfIndent`.
- ListConverter.ConvertItems: a call that fails leaves the document and state as they were, standing for a caller that catches the error and goes on.

=== FILE: client_helpers.dfy ===
/** The browser-side helpers of the upload page: HTML escaping of a file
    preview, the text-file test on a chosen file, and the upload size bound. */
module ClientHelpers {
  import opened Wrappers
  import opened Text

  // ---------------------------------------------------------------------------
  // escapeHtml

  /** The five characters `escapeHtml` replaces. */
  predicate IsSpecial(c: char) {
    c == '&' || c == '<' || c == '>' || c == '"' || c == '\''
  }

  predicate HasSpecial(s: string) {
    exists i :: 0 <= i < |s| && IsSpecial(s[i])
  }

  /** The replacement of one character: its entity when special, else itself. */
  function Entity(c: char): (e: string)
    ensures IsSpecial(c) ==> |e| >= 4 && e[0] == '&'
    ensures !IsSpecial(c) ==> e == [c]
  {
    match c
    case '&' => "&amp;"
    case '<' => "&lt;"
    case '>' => "&gt;"
    case '"' => "&quot;"
    case '\'' => "&#039;"
    case _ => [c]
  }

  /** None of `<`, `>`, `"` and `'` occurs. */
  predicate NoMarkup(s: string) {
    forall i :: 0 <= i < |s| ==> s[i] !in "<>\"'"
  }

  /** The text starts with one of the five entities `escapeHtml` produces. */
  predicate StartsEntity(t: string) {
    || StartsWith(t, "&amp;") || StartsWith(t, "&lt;") || StartsWith(t, "&gt;")
    || StartsWith(t, "&quot;") || StartsWith(t, "&#039;")
  }

  /** Every `&` starts one of the five entities. */
  predicate AmpersandsEscaped(s: string) {
    forall i :: 0 <= i < |s| && s[i] == '&' ==> StartsEntity(s[i..])
  }

  /** Every character replaced by its entity, in order. Decoding the result
      gives the original text back, so escaping loses nothing, and the result
      holds no markup character: every `&` left in it starts an entity. */
  function EscapeHtml(s: string): (r: string)
    ensures |r| >= |s|
    ensures Unescape(r) == s
    ensures NoMarkup(r)
    ensures AmpersandsEscaped(r)
  {
    if |s| == 0 then ""
    else
      var rest := EscapeHtml(s[1..]);
      UnescapeEntity(s[0], rest);
      NoMarkupAppend(s[0], rest);
      EscapedAppend(s[0], rest);
      assert [s[0]] + s[1..] == s;
      Entity(s[0]) + rest
  }

  lemma NoMarkupAppend(c: char, rest: string)
    requires NoMarkup(rest)
    ensures NoMarkup(Entity(c) + rest)
  {
    var e := Entity(c);
    forall i | 0 <= i < |e + rest|
      ensures (e + rest)[i] !in "<>\"'"
    {
      if i >= |e| {
        assert (e + rest)[i] == rest[i - |e|];
      }
    }
  }

  lemma EscapedAppend(c: char, rest: string)
    requires AmpersandsEscaped(rest)
    ensures AmpersandsEscaped(Entity(c) + rest)
  {
    var e := Entity(c);
    forall i | 0 <= i < |e + rest| && (e + rest)[i] == '&'
      ensures StartsEntity((e + rest)[i..])
    {
      if i >= |e| {
        assert (e + rest)[i..] == rest[i - |e|..];
      } else {
        EntityAmpersandFirst(c, i);
        Prefixed(e, rest);
      }
    }
  }

  /** An `&` inside a replacement is its first character, and the replacement
      is itself one of the five entities. */
  lemma EntityAmpersandFirst(c: char, i: int)
    requires 0 <= i < |Entity(c)| && Entity(c)[i] == '&'
    ensures i == 0 && IsSpecial(c)
    ensures StartsEntity(Entity(c))
  {
  }

  /** Decodes the five entities `escapeHtml` produces and keeps everything else. */
  function Unescape(s: string): string
    decreases |s|
  {
    if |s| == 0 then ""
    else if StartsWith(s, "&amp;") then "&" + Unescape(s[5..])
    else if StartsWith(s, "&lt;") then "<" + Unescape(s[4..])
    else if StartsWith(s, "&gt;") then ">" + Unescape(s[4..])
    else if StartsWith(s, "&quot;") then "\"" + Unescape(s[6..])
    else if StartsWith(s, "&#039;") then "'" + Unescape(s[6..])
    else [s[0]] + Unescape(s[1..])
  }

  lemma Mismatch(s: string, prefix: string, k: nat)
    requires k < |prefix| && k < |s| && s[k] != prefix[k]
    ensures !StartsWith(s, prefix)
  {
  }

  lemma Prefixed(prefix: string, rest: string)
    ensures StartsWith(prefix + rest, prefix)
    ensures (prefix + rest)[|prefix|..] == rest
  {
    assert (prefix + rest)[..|prefix|] == prefix;
  }

  lemma UnescapeEntity(c: char, rest: string)
    ensures Unescape(Entity(c) + rest) == [c] + Unescape(rest)
  {
    var s := Entity(c) + rest;
    Prefixed(Entity(c), rest);
    if c == '&' {
    } else if c == '<' {
      Mismatch(s, "&amp;", 1);
    } else if c == '>' {
      Mismatch(s, "&amp;", 1);
      Mismatch(s, "&lt;", 1);
    } else if c == '"' {
      Mismatch(s, "&amp;", 1);
      Mismatch(s, "&lt;", 1);
      Mismatch(s, "&gt;", 1);
    } else if c == '\'' {
      Mismatch(s, "&amp;", 1);
      Mismatch(s, "&lt;", 1);
      Mismatch(s, "&gt;", 1);
      Mismatch(s, "&quot;", 1);
    } else {
      Mismatch(s, "&amp;", 0);
      Mismatch(s, "&lt;", 0);
      Mismatch(s, "&gt;", 0);
      Mismatch(s, "&quot;", 0);
      Mismatch(s, "&#039;", 0);
    }
  }

  /** Escaping keeps the length exactly when there is nothing to replace, and
      then the text is unchanged. */
  lemma {:induction false} EscapeLength(s: string)
    ensures |EscapeHtml(s)| == |s| <==> !HasSpecial(s)
    ensures !HasSpecial(s) ==> EscapeHtml(s) == s
    decreases |s|
  {
    if |s| > 0 {
      EscapeLength(s[1..]);
      if HasSpecial(s[1..]) {
        var i :| 0 <= i < |s[1..]| && IsSpecial(s[1..][i]);
        assert IsSpecial(s[i + 1]);
      }
      if HasSpecial(s) && !IsSpecial(s[0]) {
        var i :| 0 <= i < |s| && IsSpecial(s[i]);
        assert IsSpecial(s[1..][i - 1]);
      }
      if !IsSpecial(s[0]) {
        assert [s[0]] + s[1..] == s;
      } else {
        assert HasSpecial(s) by { assert IsSpecial(s[0]); }
      }
    }
  }

  /** Escaping text that had anything to replace yields an `&`, so escaping
      again changes it: `escapeHtml` is idempotent exactly on text without the
      five characters. */
  lemma EscapeTwice(s: string)
    ensures EscapeHtml(EscapeHtml(s)) == EscapeHtml(s) <==> !HasSpecial(s)
  {
    EscapeLength(s);
    EscapeLength(EscapeHtml(s));
    if HasSpecial(s) {
      EscapedHasAmpersand(s);
    }
  }

  lemma {:induction false} EscapedHasAmpersand(s: string)
    requires HasSpecial(s)
    ensures HasSpecial(EscapeHtml(s))
    decreases |s|
  {
    var e, rest := Entity(s[0]), EscapeHtml(s[1..]);
    assert EscapeHtml(s) == e + rest;
    if IsSpecial(s[0]) {
      assert (e + rest)[0] == '&';
    } else {
      var i :| 0 <= i < |s| && IsSpecial(s[i]);
      assert IsSpecial(s[1..][i - 1]);
      EscapedHasAmpersand(s[1..]);
      var j :| 0 <= j < |rest| && IsSpecial(rest[j]);
      assert (e + rest)[|e| + j] == rest[j];
    }
  }

  /** A second pass escapes the ampersands of the first. */
  lemma EscapeTwiceExample()
    ensures EscapeHtml("<") == "&lt;"
    ensures EscapeHtml("&lt;") == "&amp;lt;"
  {
    assert EscapeHtml("<") == Entity('<') + EscapeHtml("");
    assert "&lt;"[1..] == "lt;";
    assert "lt;"[1..] == "t;";
    assert "t;"[1..] == ";";
    assert ";"[1..] == "";
  }

  // ---------------------------------------------------------------------------
  // isTextFile

  /** The MIME types accepted as text. */
  predicate IsTextType(mimeType: string) {
    mimeType == "text/plain" || mimeType == "text/markdown" || mimeType == "text/x-markdown"
  }

  /** The extensions accepted as text, compared against the lower-cased name. */
  predicate HasTextExtension(fileName: string) {
    EndsWith(fileName, ".md") || EndsWith(fileName, ".markdown") || EndsWith(fileName, ".txt")
  }

  /** `name` ends with `ext` once ASCII letters are compared without case. */
  predicate EndsWithFolded(name: string, ext: string) {
    |ext| <= |name| && forall k :: 0 <= k < |ext| ==> LowerChar(name[|name| - |ext| + k]) == ext[k]
  }

  /** A file is a text file when its MIME type is one of the text types, or else
      when its lower-cased name ends with one of the text extensions: the name's
      ending is compared without regard to letter case. */
  function IsTextFile(mimeType: string, name: string): (ok: bool)
    ensures ok <==> (|| IsTextType(mimeType)
                     || EndsWithFolded(name, ".md")
                     || EndsWithFolded(name, ".markdown")
                     || EndsWithFolded(name, ".txt"))
  {
    EndsWithLower(name, ".md");
    EndsWithLower(name, ".markdown");
    EndsWithLower(name, ".txt");
    IsTextType(mimeType) || HasTextExtension(Lower(name))
  }

  /** Testing the lower-cased name's ending is testing the name's ending
      without case. */
  lemma EndsWithLower(name: string, ext: string)
    ensures EndsWith(Lower(name), ext) <==> EndsWithFolded(name, ext)
  {
    var l := Lower(name);
    if |ext| <= |name| {
      var tail := l[|l| - |ext|..];
      assert forall k :: 0 <= k < |ext| ==> tail[k] == LowerChar(name[|name| - |ext| + k]);
      if EndsWithFolded(name, ext) {
        assert tail == ext;
      }
    }
  }

  /** Lower-casing twice is lower-casing once. */
  lemma LowerIdempotent(s: string)
    ensures Lower(Lower(s)) == Lower(s)
  {
    var l := Lower(s);
    forall i | 0 <= i < |l|
      ensures Lower(l)[i] == l[i]
    {
      assert l[i] == LowerChar(s[i]);
    }
  }

  /** The extension test ignores letter case in the name, and the MIME test
      accepts the three text types whatever the name. */
  lemma IsTextFileCaseInsensitive(mimeType: string, name: string)
    ensures IsTextFile(mimeType, name) == IsTextFile(mimeType, Lower(name))
    ensures IsTextType(mimeType) ==> IsTextFile(mimeType, name)
  {
    LowerIdempotent(name);
  }

  lemma LowerAppend(a: string, b: string)
    ensures Lower(a + b) == Lower(a) + Lower(b)
  {
    var l, r := Lower(a + b), Lower(a) + Lower(b);
    forall i | 0 <= i < |l|
      ensures l[i] == r[i]
    {
      assert l[i] == LowerChar((a + b)[i]);
      if i < |a| {
        assert (a + b)[i] == a[i];
        assert r[i] == Lower(a)[i] == LowerChar(a[i]);
      } else {
        assert (a + b)[i] == b[i - |a|];
        assert r[i] == Lower(b)[i - |a|] == LowerChar(b[i - |a|]);
      }
    }
  }

  /** Whatever comes before it, a name whose ending is accepted is accepted. */
  lemma AcceptedEnding(mimeType: string, stem: string, ending: string)
    ensures IsTextFile(mimeType, ending) ==> IsTextFile(mimeType, stem + ending)
  {
    LowerAppend(stem, ending);
    var l, e := Lower(stem + ending), Lower(ending);
    assert l[|l| - |e|..] == e;
    forall x: string | |x| <= |e| && e[|e| - |x|..] == x
      ensures l[|l| - |x|..] == x
    {
      assert l[|l| - |x|..] == e[|e| - |x|..];
    }
  }

  /** An upper-case `.MD` extension is accepted whatever the MIME type says. */
  lemma UpperCaseExtension(mimeType: string, stem: string)
    ensures IsTextFile(mimeType, stem + ".MD")
  {
    var e := Lower(".MD");
    assert e[0] == '.' && e[1] == 'm' && e[2] == 'd';
    assert e[|e| - 3..] == ".md";
    AcceptedEnding(mimeType, stem, ".MD");
  }

  /** A longer extension that merely starts like a text extension is refused
      when the MIME type is not a text type. */
  lemma LongerExtension(mimeType: string, stem: string)
    requires !IsTextType(mimeType)
    ensures !IsTextFile(mimeType, stem + ".mdx")
  {
    LowerAppend(stem, ".mdx");
    var l, e := Lower(stem + ".mdx"), Lower(".mdx");
    assert e[1] == 'm' && e[3] == 'x';
    assert l[|l| - 1] == 'x' && l[|l| - 3] == 'm';
    assert !EndsWith(l, ".md") by { assert ".md"[2] == 'd'; }
    assert !EndsWith(l, ".markdown") by { assert ".markdown"[8] == 'n'; }
    assert !EndsWith(l, ".txt") by { assert ".txt"[1] == 't'; }
  }

  /** The MIME comparison is case-sensitive: an upper-case text type is not
      recognised. */
  lemma MimeCaseMatters()
    ensures !IsTextType("TEXT/PLAIN") && !IsTextType("TEXT/MARKDOWN")
  {
    assert "TEXT/PLAIN"[0] == 'T';
    assert "TEXT/MARKDOWN"[0] == 'T';
  }

  // ---------------------------------------------------------------------------
  // Upload size bound

  /** 16 MiB, the largest accepted upload. */
  const MaxUploadSize: nat := 16 * 1024 * 1024

  /** The size part of form validation: no file chosen passes, otherwise the file
      passes unless it is strictly larger than the bound. */
  function ValidateFileSize(file: Option<nat>): (ok: bool)
    ensures ok <==> file.None? || file.value <= 16777216
  {
    match file
    case None => true
    case Some(size) => !(size > MaxUploadSize)
  }

  /** Exactly 16 MiB passes, one byte more fails, and a file smaller than one that
      passes passes too. */
  lemma FileSizeBoundary(size: nat, smaller: nat)
    ensures ValidateFileSize(Some(16777216)) && !ValidateFileSize(Some(16777217))
    ensures ValidateFileSize(Some(size)) && smaller <= size ==> ValidateFileSize(Some(smaller))
    ensures ValidateFileSize(Some(size)) <==> size <= 16777216
  {
  }
}

=== FILE: doc_model.dfy ===
/** The plain-record document model the converters write into: tokens as the
    markup parser hands them over, styled runs, paragraphs with their numbering
    reference and indentation, and the append-only document. Lengths are integer
    twips (1440 per inch), so the source's 0.25 inch step is 360 twips. */
module DocModel {
  import opened Wrappers

  /** A child of an inline token. Tokens from the markup parser always carry a
      kind and a content string; `attrs` maps an attribute name to the Python
      truthiness of its value. */
  datatype Inline = Inline(kind: string, content: string, attrs: map<string, bool>)

  /** A block-level token as the converters receive it. They probe it with
      `hasattr`, so every field may be missing (`None`); a `content` that is not
      a string is also `None`. */
  datatype Token = Token(kind: Option<string>, content: Option<string>, children: Option<seq<Inline>>)

  datatype Style = Style(bold: bool, italic: bool, strike: bool)

  const Plain := Style(false, false, false)

  datatype Run = Run(text: string, style: Style)

  /** A numbering reference: numbering-definition id and 0-based list level. */
  datatype NumRef = NumRef(numId: int, ilvl: int)

  datatype Paragraph = Paragraph(
    style: Option<string>,
    leftIndent: Option<int>,
    firstLineIndent: Option<int>,
    numbering: Option<NumRef>,
    runs: seq<Run>)

  /** A freshly added paragraph: default style, no indentation, no runs. */
  const EmptyParagraph := Paragraph(None, None, None, None, [])

  /** The document body (append-only) and the names of its paragraph styles. */
  datatype Document = Document(paragraphs: seq<Paragraph>, styles: set<string>)

  /** Twips per 0.25 inch, the indentation step per list level. */
  const IndentStep := 360

  /** Nesting level encoded by a list token's indentation string: two characters
      of indentation per level, counted from 1. */
  function LevelOfIndent(indent: string): (level: int)
    ensures level >= 1
    ensures 2 * (level - 1) <= |indent| < 2 * level
  {
    |indent| / 2 + 1
  }

  /** One write to a paragraph's indentation properties. */
  datatype IndentWrite = SetLeft(twips: int) | SetFirstLine(twips: int)

  /** Write `i` is the last write to the left indent. */
  predicate LastLeftAt(writes: seq<IndentWrite>, i: int) {
    0 <= i < |writes| && writes[i].SetLeft? && forall j :: i < j < |writes| ==> !writes[j].SetLeft?
  }

  /** Write `i` is the last write to the first-line indent. */
  predicate LastFirstLineAt(writes: seq<IndentWrite>, i: int) {
    0 <= i < |writes| && writes[i].SetFirstLine? && forall j :: i < j < |writes| ==> !writes[j].SetFirstLine?
  }

  /** The last write to an indent is the final write when that write sets it, and
      otherwise it is still the last write to it among the earlier writes. */
  lemma LastWriteInPrefix(writes: seq<IndentWrite>, i: int)
    requires |writes| > 0
    ensures LastLeftAt(writes, i) && writes[|writes| - 1].SetLeft? ==> i == |writes| - 1
    ensures LastLeftAt(writes, i) && !writes[|writes| - 1].SetLeft?
            ==> LastLeftAt(writes[..|writes| - 1], i) && writes[..|writes| - 1][i] == writes[i]
    ensures LastFirstLineAt(writes, i) && writes[|writes| - 1].SetFirstLine? ==> i == |writes| - 1
    ensures LastFirstLineAt(writes, i) && !writes[|writes| - 1].SetFirstLine?
            ==> LastFirstLineAt(writes[..|writes| - 1], i) && writes[..|writes| - 1][i] == writes[i]
  {
  }

  /** Applies indentation writes in order; later writes overwrite earlier ones. */
  function ApplyIndents(p: Paragraph, writes: seq<IndentWrite>): (q: Paragraph)
    ensures q.style == p.style && q.numbering == p.numbering && q.runs == p.runs
    ensures (exists i :: 0 <= i < |writes| && writes[i].SetLeft?) ==> q.leftIndent.Some?
    ensures (forall i :: 0 <= i < |writes| ==> !writes[i].SetLeft?) ==> q.leftIndent == p.leftIndent
    ensures |writes| > 0 && writes[|writes| - 1].SetLeft? ==> q.leftIndent == Some(writes[|writes| - 1].twips)
    ensures |writes| > 0 && writes[|writes| - 1].SetFirstLine? ==> q.firstLineIndent == Some(writes[|writes| - 1].twips)
    decreases |writes|
  {
    if |writes| == 0 then p
    else
      var last := writes[|writes| - 1];
      var q := ApplyIndents(p, writes[..|writes| - 1]);
      match last
      case SetLeft(t) => q.(leftIndent := Some(t))
      case SetFirstLine(t) => q.(firstLineIndent := Some(t))
  }

  /** The final write sets its own indent and leaves the other as the earlier
      writes left it. */
  lemma ApplyLast(p: Paragraph, writes: seq<IndentWrite>)
    requires |writes| > 0
    ensures var n := |writes| - 1;
      var q, r := ApplyIndents(p, writes[..n]), ApplyIndents(p, writes);
      && (writes[n].SetLeft? ==> r.leftIndent == Some(writes[n].twips) && r.firstLineIndent == q.firstLineIndent)
      && (writes[n].SetFirstLine? ==> r.firstLineIndent == Some(writes[n].twips) && r.leftIndent == q.leftIndent)
  {
  }

  /** The left indent ends as its last write set it. */
  lemma {:induction false} LastLeftWins(p: Paragraph, writes: seq<IndentWrite>, i: int)
    requires LastLeftAt(writes, i)
    ensures ApplyIndents(p, writes).leftIndent == Some(writes[i].twips)
    decreases |writes|
  {
    var n := |writes| - 1;
    ApplyLast(p, writes);
    LastWriteInPrefix(writes, i);
    if !writes[n].SetLeft? {
      LastLeftWins(p, writes[..n], i);
    }
  }

  /** The first-line indent ends as its last write set it. */
  lemma {:induction false} LastFirstLineWins(p: Paragraph, writes: seq<IndentWrite>, i: int)
    requires LastFirstLineAt(writes, i)
    ensures ApplyIndents(p, writes).firstLineIndent == Some(writes[i].twips)
    decreases |writes|
  {
    var n := |writes| - 1;
    ApplyLast(p, writes);
    LastWriteInPrefix(writes, i);
    if !writes[n].SetFirstLine? {
      LastFirstLineWins(p, writes[..n], i);
    }
  }

  /** Without a write to it, the first-line indent keeps its value. */
  lemma {:induction false} FirstLineKept(p: Paragraph, writes: seq<IndentWrite>)
    requires forall i :: 0 <= i < |writes| ==> !writes[i].SetFirstLine?
    ensures ApplyIndents(p, writes).firstLineIndent == p.firstLineIndent
    decreases |writes|
  {
    if |writes| > 0 {
      var n := |writes| - 1;
      ApplyLast(p, writes);
      assert forall i :: 0 <= i < n ==> writes[..n][i] == writes[i];
      FirstLineKept(p, writes[..n]);
    }
  }

  /** The indentation writes a list or task-list item ends with: left indent one
      step per level below the first, and a hanging first line of one step. */
  function HangingIndentWrites(level: int): seq<IndentWrite>
  {
    [SetLeft(IndentStep * (level - 1)), SetFirstLine(-IndentStep)]
  }

  /** Whatever came before, an item's indentation ends as the level rule says. */
  lemma {:induction false} HangingIndentWins(p: Paragraph, earlier: seq<IndentWrite>, level: int)
    ensures ApplyIndents(p, earlier + HangingIndentWrites(level)).leftIndent == Some(IndentStep * (level - 1))
    ensures ApplyIndents(p, earlier + HangingIndentWrites(level)).firstLineIndent == Some(-IndentStep)
  {
    var ws := earlier + HangingIndentWrites(level);
    assert ws[..|ws| - 1] == earlier + [SetLeft(IndentStep * (level - 1))];
    assert (earlier + [SetLeft(IndentStep * (level - 1))])[..|earlier|] == earlier;
  }
}

=== FILE: inline_runs.dfy ===
/** The loop of `ListConverter.convert` that folds a list item's inline child
    tokens into styled runs: text accumulates in a pending buffer, and every
    bold/italic/strikethrough open or close token first flushes the buffer as a
    run carrying the flags in force, then sets or clears its flag. */
module InlineRuns {
  import opened DocModel

  /** A text child's contribution: line feeds become spaces and one trailing
      space is dropped. */
  function NormalizeText(t: string): (r: string)
    ensures |t| - 1 <= |r| <= |t|
    ensures forall i :: 0 <= i < |r| ==> r[i] == (if t[i] == '\n' then ' ' else t[i])
    ensures |r| < |t| <==> (|t| > 0 && (t[|t| - 1] == ' ' || t[|t| - 1] == '\n'))
  {
    var replaced := NewlinesToSpaces(t);
    if |replaced| > 0 && replaced[|replaced| - 1] == ' ' then replaced[..|replaced| - 1] else replaced
  }

  function NewlinesToSpaces(t: string): (r: string)
    ensures |r| == |t|
    ensures forall i :: 0 <= i < |t| ==> r[i] == (if t[i] == '\n' then ' ' else t[i])
  {
    if |t| == 0 then "" else [if t[0] == '\n' then ' ' else t[0]] + NewlinesToSpaces(t[1..])
  }

  /** The kinds that open or close bold, italic or strikethrough. */
  predicate IsToggle(kind: string) {
    kind in {"strong_open", "strong_close", "em_open", "em_close", "s_open", "s_close"}
  }

  /** The style flags after a child token: toggles set or clear their flag, every
      other kind leaves the flags alone. */
  function StyleAfter(st: Style, child: Inline): (r: Style)
    ensures !IsToggle(child.kind) ==> r == st
    ensures child.kind == "strong_open" ==> r == st.(bold := true)
    ensures child.kind == "strong_close" ==> r == st.(bold := false)
    ensures child.kind == "em_open" ==> r == st.(italic := true)
    ensures child.kind == "em_close" ==> r == st.(italic := false)
    ensures child.kind == "s_open" ==> r == st.(strike := true)
    ensures child.kind == "s_close" ==> r == st.(strike := false)
  {
    var k := child.kind;
    if k == "strong_open" then st.(bold := true)
    else if k == "strong_close" then st.(bold := false)
    else if k == "em_open" then st.(italic := true)
    else if k == "em_close" then st.(italic := false)
    else if k == "s_open" then st.(strike := true)
    else if k == "s_close" then st.(strike := false)
    else st
  }

  /** The text a child adds to the paragraph: normalized text for `text`, one
      space for `softbreak`, nothing for any other kind. */
  function Contribution(child: Inline): string
  {
    if child.kind == "text" then NormalizeText(child.content)
    else if child.kind == "softbreak" then " "
    else ""
  }

  /** State of the run loop: pending text, flags in force, runs emitted so far. */
  datatype Builder = Builder(pending: string, style: Style, runs: seq<Run>)

  const Start := Builder("", Plain, [])

  predicate NoEmptyRuns(runs: seq<Run>) {
    forall i :: 0 <= i < |runs| ==> runs[i].text != ""
  }

  /** Emits the pending text as a run with the current flags, if there is any. */
  function Flush(b: Builder): (r: Builder)
    ensures r.pending == "" && r.style == b.style
    ensures b.pending == "" ==> r.runs == b.runs
    ensures b.pending != "" ==> r.runs == b.runs + [Run(b.pending, b.style)]
  {
    if b.pending == "" then b else Builder("", b.style, b.runs + [Run(b.pending, b.style)])
  }

  /** One iteration of the loop over the item's children. */
  function Feed(b: Builder, child: Inline): Builder
  {
    if child.kind == "text" then b.(pending := b.pending + NormalizeText(child.content))
    else if IsToggle(child.kind) then Flush(b).(style := StyleAfter(b.style, child))
    else if child.kind == "softbreak" then b.(pending := b.pending + " ")
    else b
  }

  function FeedAll(b: Builder, children: seq<Inline>): Builder
    decreases |children|
  {
    if |children| == 0 then b else FeedAll(Feed(b, children[0]), children[1..])
  }

  /** The runs of a list item whose content token has children. They are the
      stretch-by-stretch reading `Segments`: one run per toggle-free stretch with
      text, so runs are cut at every toggle that has text pending and nowhere
      else. Read character by character they are exactly the children's text,
      each character carrying the flags in force when it was read; no run is
      empty; and there is at most one more run than toggle tokens. */
  function BuildRuns(children: seq<Inline>): (runs: seq<Run>)
    ensures runs == Segments(Plain, children)
    ensures Expand(runs) == Annotate(Plain, children)
    ensures NoEmptyRuns(runs)
    ensures |runs| <= ToggleCount(children) + 1
  {
    FeedAllSegments(Start, children);
    assert [] + Segments(Plain, children) == Segments(Plain, children);
    FeedAllExpand(Start, children);
    FeedAllNoEmptyRuns(Start, children);
    FeedAllRunCount(Start, children);
    Flush(FeedAll(Start, children)).runs
  }

  // ---------------------------------------------------------------------------
  // Reference definition: every character with the flags in force when it was read

  datatype StyledChar = StyledChar(c: char, style: Style)

  function Styled(s: string, st: Style): (r: seq<StyledChar>)
    ensures |r| == |s|
  {
    if |s| == 0 then [] else [StyledChar(s[0], st)] + Styled(s[1..], st)
  }

  /** The characters of a run sequence, each tagged with its run's flags. */
  function Expand(runs: seq<Run>): seq<StyledChar>
  {
    if |runs| == 0 then [] else Expand(runs[..|runs| - 1]) + Styled(runs[|runs| - 1].text, runs[|runs| - 1].style)
  }

  /** The characters the children contribute, each tagged with the flags that are
      in force when its child is read, starting from `st`. */
  function Annotate(st: Style, children: seq<Inline>): seq<StyledChar>
    decreases |children|
  {
    if |children| == 0 then []
    else Styled(Contribution(children[0]), st) + Annotate(StyleAfter(st, children[0]), children[1..])
  }

  lemma {:induction false} StyledAppend(a: string, b: string, st: Style)
    ensures Styled(a + b, st) == Styled(a, st) + Styled(b, st)
  {
    if |a| == 0 {
      assert a + b == b;
    } else {
      assert (a + b)[1..] == a[1..] + b;
      StyledAppend(a[1..], b, st);
    }
  }

  lemma FlushExpand(b: Builder)
    ensures Expand(Flush(b).runs) == Expand(b.runs) + Styled(b.pending, b.style)
  {
    if b.pending != "" {
      var rs := b.runs + [Run(b.pending, b.style)];
      assert rs[..|rs| - 1] == b.runs;
    }
  }

  /** One step of the loop moves exactly the child's contribution, with the flags
      in force before the child, from "unread" to "emitted or pending". */
  lemma FeedExpand(b: Builder, child: Inline)
    ensures Feed(b, child).style == StyleAfter(b.style, child)
    ensures Expand(Feed(b, child).runs) + Styled(Feed(b, child).pending, Feed(b, child).style)
         == Expand(b.runs) + Styled(b.pending, b.style) + Styled(Contribution(child), b.style)
  {
    if child.kind == "text" {
      StyledAppend(b.pending, NormalizeText(child.content), b.style);
    } else if IsToggle(child.kind) {
      FlushExpand(b);
    } else if child.kind == "softbreak" {
      StyledAppend(b.pending, " ", b.style);
    }
  }

  lemma {:induction false} FeedAllExpand(b: Builder, children: seq<Inline>)
    ensures Expand(Flush(FeedAll(b, children)).runs)
         == Expand(b.runs) + Styled(b.pending, b.style) + Annotate(b.style, children)
    decreases |children|
  {
    if |children| == 0 {
      FlushExpand(b);
    } else {
      var c, rest := children[0], children[1..];
      var b1 := Feed(b, c);
      FeedExpand(b, c);
      FeedAllExpand(b1, rest);
      Regroup(Expand(b.runs) + Styled(b.pending, b.style), Styled(Contribution(c), b.style),
              Annotate(b1.style, rest));
    }
  }

  lemma Regroup<T>(a: seq<T>, b: seq<T>, c: seq<T>)
    ensures (a + b) + c == a + (b + c)
  {
  }

  lemma {:induction false} FeedAllNoEmptyRuns(b: Builder, children: seq<Inline>)
    requires NoEmptyRuns(b.runs)
    ensures NoEmptyRuns(Flush(FeedAll(b, children)).runs)
    decreases |children|
  {
    if |children| > 0 {
      FeedAllNoEmptyRuns(Feed(b, children[0]), children[1..]);
    }
  }

  // ---------------------------------------------------------------------------
  // Reference reading of the flags: the last toggle of each pair decides

  /** The three flags, each opened and closed by its own pair of kinds. */
  datatype Flag = Bold | Italic | Strike

  function OpenKind(f: Flag): string {
    match f
    case Bold => "strong_open"
    case Italic => "em_open"
    case Strike => "s_open"
  }

  function CloseKind(f: Flag): string {
    match f
    case Bold => "strong_close"
    case Italic => "em_close"
    case Strike => "s_close"
  }

  function FlagOf(st: Style, f: Flag): bool {
    match f
    case Bold => st.bold
    case Italic => st.italic
    case Strike => st.strike
  }

  predicate Toggles(kind: string, f: Flag) {
    kind == OpenKind(f) || kind == CloseKind(f)
  }

  /** Child `i` is the last child that opens or closes the flag. */
  predicate LastToggleAt(children: seq<Inline>, f: Flag, i: int) {
    && 0 <= i < |children|
    && Toggles(children[i].kind, f)
    && forall j :: i < j < |children| ==> !Toggles(children[j].kind, f)
  }

  /** Some child of the flag's pair occurs, and the last of them opens it. */
  predicate OpenedLast(children: seq<Inline>, f: Flag) {
    exists i :: 0 <= i < |children| && LastToggleAt(children, f, i) && children[i].kind == OpenKind(f)
  }

  /** No child of the flag's pair occurs. */
  predicate Untouched(children: seq<Inline>, f: Flag) {
    forall i :: 0 <= i < |children| ==> !Toggles(children[i].kind, f)
  }

  /** The flag is set after the children iff the last child of its pair opens
      it, or no child of its pair occurs and it was set before. */
  predicate SetAfter(before: bool, children: seq<Inline>, f: Flag) {
    OpenedLast(children, f) || (before && Untouched(children, f))
  }

  /** A child sets or clears a flag when it is of that flag's pair, and leaves it
      alone otherwise. */
  lemma StyleAfterFlag(st: Style, child: Inline, f: Flag)
    ensures FlagOf(StyleAfter(st, child), f)
         == if child.kind == OpenKind(f) then true
            else if child.kind == CloseKind(f) then false
            else FlagOf(st, f)
  {
  }

  /** Putting a child in front shifts the last toggle by one position. */
  lemma ShiftLast(x: Inline, rest: seq<Inline>, f: Flag, i: int)
    requires 0 <= i < |rest|
    ensures ([x] + rest)[i + 1] == rest[i]
    ensures LastToggleAt([x] + rest, f, i + 1) <==> LastToggleAt(rest, f, i)
  {
    var c := [x] + rest;
    assert c[i + 1] == rest[i];
    if LastToggleAt(rest, f, i) {
      forall k | i + 1 < k < |c|
        ensures !Toggles(c[k].kind, f)
      {
        assert c[k] == rest[k - 1];
      }
    }
    if LastToggleAt(c, f, i + 1) {
      forall k | i < k < |rest|
        ensures !Toggles(rest[k].kind, f)
      {
        assert c[k + 1] == rest[k];
      }
    }
  }

  lemma OpenedLastCons(x: Inline, rest: seq<Inline>, f: Flag, i: int)
    requires 0 <= i < |rest| && LastToggleAt(rest, f, i) && rest[i].kind == OpenKind(f)
    ensures OpenedLast([x] + rest, f)
  {
    ShiftLast(x, rest, f, i);
  }

  lemma OpenedLastUncons(x: Inline, rest: seq<Inline>, f: Flag, k: int)
    requires 0 < k <= |rest| && LastToggleAt([x] + rest, f, k) && ([x] + rest)[k].kind == OpenKind(f)
    ensures OpenedLast(rest, f)
  {
    ShiftLast(x, rest, f, k - 1);
  }

  /** When a later child of the pair occurs, the child in front does not matter. */
  lemma SetAfterConsToggled(before: bool, after: bool, x: Inline, rest: seq<Inline>, f: Flag, j: int)
    requires 0 <= j < |rest| && Toggles(rest[j].kind, f)
    ensures SetAfter(before, [x] + rest, f) == SetAfter(after, rest, f)
  {
    var c := [x] + rest;
    assert c[j + 1] == rest[j];
    assert !Untouched(c, f) && !Untouched(rest, f);
    assert !LastToggleAt(c, f, 0);
    if OpenedLast(rest, f) {
      var i :| 0 <= i < |rest| && LastToggleAt(rest, f, i) && rest[i].kind == OpenKind(f);
      OpenedLastCons(x, rest, f, i);
    }
    if OpenedLast(c, f) {
      var k :| 0 <= k < |c| && LastToggleAt(c, f, k) && c[k].kind == OpenKind(f);
      OpenedLastUncons(x, rest, f, k);
    }
  }

  /** When no later child of the pair occurs, the child in front decides, or the
      flag keeps its value. */
  lemma SetAfterConsUntoggled(before: bool, x: Inline, rest: seq<Inline>, f: Flag)
    requires Untouched(rest, f)
    ensures SetAfter(before, [x] + rest, f)
         == if x.kind == OpenKind(f) then true else if x.kind == CloseKind(f) then false else before
  {
    var c := [x] + rest;
    assert c[0] == x;
    forall k | 0 < k < |c|
      ensures !Toggles(c[k].kind, f)
    {
      assert c[k] == rest[k - 1];
    }
    if Toggles(x.kind, f) {
      assert LastToggleAt(c, f, 0);
      assert !Untouched(c, f);
      if OpenedLast(c, f) {
        var k :| 0 <= k < |c| && LastToggleAt(c, f, k) && c[k].kind == OpenKind(f);
        assert k == 0;
      }
    } else {
      assert Untouched(c, f);
      assert !OpenedLast(c, f);
    }
  }

  /** Reading one more child in front: the flag the rest starts from is the one
      that child leaves. */
  lemma SetAfterCons(before: bool, x: Inline, rest: seq<Inline>, f: Flag)
    ensures SetAfter(before, [x] + rest, f)
         == SetAfter(if x.kind == OpenKind(f) then true else if x.kind == CloseKind(f) then false else before, rest, f)
  {
    var after := if x.kind == OpenKind(f) then true else if x.kind == CloseKind(f) then false else before;
    if Untouched(rest, f) {
      SetAfterConsUntoggled(before, x, rest, f);
      assert !OpenedLast(rest, f);
    } else {
      var j :| 0 <= j < |rest| && Toggles(rest[j].kind, f);
      SetAfterConsToggled(before, after, x, rest, f, j);
    }
  }

  /** After the loop, each flag is set iff the last child of its pair opened it,
      or none of its pair occurred and it was set at the start. */
  lemma {:induction false} FlagsAfterChildren(b: Builder, children: seq<Inline>, f: Flag)
    ensures FlagOf(FeedAll(b, children).style, f) <==> SetAfter(FlagOf(b.style, f), children, f)
    decreases |children|
  {
    if |children| == 0 {
    } else {
      var x, rest := children[0], children[1..];
      assert [x] + rest == children;
      FeedStyle(b, x);
      FlagsAfterChildren(Feed(b, x), rest, f);
      StyleAfterFlag(b.style, x, f);
      SetAfterCons(FlagOf(b.style, f), x, rest, f);
    }
  }

  /** The flags after one step of the loop are those the child leaves. */
  lemma FeedStyle(b: Builder, child: Inline)
    ensures Feed(b, child).style == StyleAfter(b.style, child)
  {
  }

  function ToggleCount(children: seq<Inline>): nat
  {
    if |children| == 0 then 0
    else (if IsToggle(children[0].kind) then 1 else 0) + ToggleCount(children[1..])
  }

  lemma {:induction false} FeedAllRunCount(b: Builder, children: seq<Inline>)
    ensures |FeedAll(b, children).runs| <= |b.runs| + ToggleCount(children)
    decreases |children|
  {
    if |children| > 0 {
      FeedAllRunCount(Feed(b, children[0]), children[1..]);
    }
  }

  function Contributions(children: seq<Inline>): string
  {
    if |children| == 0 then "" else Contribution(children[0]) + Contributions(children[1..])
  }

  // ---------------------------------------------------------------------------
  // Reference definition of the cut points: one run per toggle-free stretch

  /** The position of the first toggle child, or the length when there is none. */
  function FirstToggle(children: seq<Inline>): (k: nat)
    ensures k <= |children|
    ensures forall i :: 0 <= i < k ==> !IsToggle(children[i].kind)
    ensures k < |children| ==> IsToggle(children[k].kind)
    decreases |children|
  {
    if |children| == 0 || IsToggle(children[0].kind) then 0 else 1 + FirstToggle(children[1..])
  }

  /** The run a toggle-free stretch of text gives: none when the text is empty. */
  function Stretch(text: string, st: Style): seq<Run>
  {
    if text == "" then [] else [Run(text, st)]
  }

  /** The runs read stretch by stretch: the text of the longest toggle-free
      prefix becomes one run with the flags `st`, unless that text is empty, and
      the rest is read after the toggle that ends the stretch, with the toggle's
      flag changed. */
  function Segments(st: Style, children: seq<Inline>): seq<Run>
    decreases |children|
  {
    var k := FirstToggle(children);
    var head := Stretch(Contributions(children[..k]), st);
    if k == |children| then head
    else head + Segments(StyleAfter(st, children[k]), children[k + 1..])
  }

  /** Feeding a sequence of children is feeding a prefix and then the rest. */
  lemma {:induction false} FeedAllSplit(b: Builder, children: seq<Inline>, k: nat)
    requires k <= |children|
    ensures FeedAll(b, children) == FeedAll(FeedAll(b, children[..k]), children[k..])
    decreases k
  {
    if k == 0 {
      assert children[..0] == [] && children[0..] == children;
    } else {
      assert children[..k][0] == children[0] && children[..k][1..] == children[1..][..k - 1];
      assert children[1..][k - 1..] == children[k..];
      FeedAllSplit(Feed(b, children[0]), children[1..], k - 1);
    }
  }

  /** The toggle-free stretch in front only adds its text to the pending text. */
  lemma StretchFed(b: Builder, children: seq<Inline>)
    ensures FeedAll(b, children[..FirstToggle(children)])
         == b.(pending := b.pending + Contributions(children[..FirstToggle(children)]))
  {
    var pre := children[..FirstToggle(children)];
    forall i | 0 <= i < |pre|
      ensures !IsToggle(pre[i].kind)
    {
      assert pre[i] == children[i];
    }
    FeedAllUntoggled(b, pre);
  }

  /** After the stretch, the loop goes on with the toggle that ends it. */
  lemma FeedAtToggle(b: Builder, children: seq<Inline>, k: nat)
    requires k < |children|
    ensures FeedAll(b, children)
         == FeedAll(Feed(FeedAll(b, children[..k]), children[k]), children[k + 1..])
  {
    FeedAllSplit(b, children, k);
    assert children[k..][0] == children[k] && children[k..][1..] == children[k + 1..];
  }

  /** Flushing a stretch's text appends the stretch's run. */
  lemma FlushStretch(b: Builder, text: string)
    ensures Flush(b.(pending := text)).runs == b.runs + Stretch(text, b.style)
  {
    if text == "" {
      assert b.runs + [] == b.runs;
    }
  }

  /** The builder after the first stretch and the toggle that ends it. */
  function AfterStretch(b: Builder, children: seq<Inline>, k: nat): Builder
    requires k < |children|
  {
    Builder("", StyleAfter(b.style, children[k]), b.runs + Stretch(Contributions(children[..k]), b.style))
  }

  /** Without a toggle, the loop's runs are the single stretch. */
  lemma LastStretch(b: Builder, children: seq<Inline>)
    requires b.pending == "" && FirstToggle(children) == |children|
    ensures Flush(FeedAll(b, children)).runs == b.runs + Segments(b.style, children)
  {
    var text := Contributions(children);
    StretchFed(b, children);
    assert children[..|children|] == children;
    assert "" + text == text;
    FlushStretch(b, text);
  }

  /** Feeding the first stretch and its toggle leaves the stretch's run emitted,
      nothing pending, and the toggle's flag changed. */
  lemma FeedThroughToggle(b: Builder, children: seq<Inline>, k: nat)
    requires b.pending == "" && k == FirstToggle(children) && k < |children|
    ensures FeedAll(b, children) == FeedAll(AfterStretch(b, children, k), children[k + 1..])
  {
    var text := Contributions(children[..k]);
    var b1 := b.(pending := text);
    StretchFed(b, children);
    assert "" + text == text;
    assert FeedAll(b, children[..k]) == b1;
    FlushStretch(b, text);
    assert Feed(b1, children[k]) == AfterStretch(b, children, k);
    FeedAtToggle(b, children, k);
  }

  /** With a first toggle at `k`, the stretch-by-stretch reading is the first
      stretch's run followed by the reading of the rest after the toggle. */
  lemma SegmentsAtToggle(st: Style, children: seq<Inline>, k: nat)
    requires k == FirstToggle(children) && k < |children|
    ensures Segments(st, children)
         == Stretch(Contributions(children[..k]), st) + Segments(StyleAfter(st, children[k]), children[k + 1..])
  {
  }

  /** With a first toggle at `k`, the loop's runs are the first stretch followed
      by the runs the rest gives after the toggle. */
  lemma ToggleStretch(b: Builder, children: seq<Inline>, k: nat)
    requires b.pending == "" && k == FirstToggle(children) && k < |children|
    requires Flush(FeedAll(AfterStretch(b, children, k), children[k + 1..])).runs
          == AfterStretch(b, children, k).runs + Segments(StyleAfter(b.style, children[k]), children[k + 1..])
    ensures Flush(FeedAll(b, children)).runs == b.runs + Segments(b.style, children)
  {
    var head := Stretch(Contributions(children[..k]), b.style);
    var tail := Segments(StyleAfter(b.style, children[k]), children[k + 1..]);
    FeedThroughToggle(b, children, k);
    SegmentsAtToggle(b.style, children, k);
    Regroup(b.runs, head, tail);
  }

  /** Started with nothing pending, the loop adds exactly the stretch-by-stretch
      runs to the runs it already has. */
  lemma {:induction false} FeedAllSegments(b: Builder, children: seq<Inline>)
    requires b.pending == ""
    ensures Flush(FeedAll(b, children)).runs == b.runs + Segments(b.style, children)
    decreases |children|
  {
    var k := FirstToggle(children);
    if k == |children| {
      LastStretch(b, children);
    } else {
      FeedAllSegments(AfterStretch(b, children, k), children[k + 1..]);
      ToggleStretch(b, children, k);
    }
  }

  lemma {:induction false} FeedAllUntoggled(b: Builder, children: seq<Inline>)
    requires forall i :: 0 <= i < |children| ==> !IsToggle(children[i].kind)
    ensures FeedAll(b, children) == b.(pending := b.pending + Contributions(children))
    decreases |children|
  {
    if |children| > 0 {
      var c, rest := children[0], children[1..];
      forall i | 0 <= i < |rest|
        ensures !IsToggle(rest[i].kind)
      {
        assert rest[i] == children[i + 1];
      }
      calc {
        FeedAll(b, children);
        FeedAll(Feed(b, c), rest);
        { FeedUntoggled(b, c); }
        FeedAll(b.(pending := b.pending + Contribution(c)), rest);
        { FeedAllUntoggled(b.(pending := b.pending + Contribution(c)), rest); }
        b.(pending := b.pending + Contribution(c) + Contributions(rest));
        { assert b.pending + Contribution(c) + Contributions(rest) == b.pending + Contributions(children); }
        b.(pending := b.pending + Contributions(children));
      }
    }
  }

  /** A child that is not a toggle only appends its contribution to the pending text. */
  lemma FeedUntoggled(b: Builder, child: Inline)
    requires !IsToggle(child.kind)
    ensures Feed(b, child) == b.(pending := b.pending + Contribution(child))
  {
    if child.kind != "text" && child.kind != "softbreak" {
      assert b.pending + "" == b.pending;
    }
  }

  /** Without toggle tokens the item's text becomes a single unstyled run, or no
      run at all when it is empty. */
  lemma UntoggledIsOneRun(children: seq<Inline>)
    requires forall i :: 0 <= i < |children| ==> !IsToggle(children[i].kind)
    ensures Contributions(children) == "" ==> BuildRuns(children) == []
    ensures Contributions(children) != "" ==> BuildRuns(children) == [Run(Contributions(children), Plain)]
  {
    FeedAllUntoggled(Start, children);
  }

  /** `a**b**c` gives exactly three runs: plain "a", bold "b", plain "c". */
  lemma BoldInTheMiddle(a: char, b: char, c: char)
    requires a !in " \n" && b !in " \n" && c !in " \n"
    ensures BuildRuns([Inline("text", [a], map[]), Inline("strong_open", "", map[]),
                       Inline("text", [b], map[]), Inline("strong_close", "", map[]),
                       Inline("text", [c], map[])])
         == [Run([a], Plain), Run([b], Plain.(bold := true)), Run([c], Plain)]
  {
    BoldInTheMiddleSegments(a, b, c);
  }

  lemma BoldInTheMiddleSegments(a: char, b: char, c: char)
    requires a !in " \n" && b !in " \n" && c !in " \n"
    ensures Segments(Plain, [Inline("text", [a], map[]), Inline("strong_open", "", map[]),
                             Inline("text", [b], map[]), Inline("strong_close", "", map[]),
                             Inline("text", [c], map[])])
         == [Run([a], Plain), Run([b], Plain.(bold := true)), Run([c], Plain)]
  {
    var tb, tc := Inline("text", [b], map[]), Inline("text", [c], map[]);
    var cs := [Inline("text", [a], map[]), Inline("strong_open", "", map[]), tb, Inline("strong_close", "", map[]), tc];
    var rest := [tb, Inline("strong_close", "", map[]), tc];
    LetterStretch(Plain, a, cs);
    assert cs[2..] == rest;
    LetterStretch(Plain.(bold := true), b, rest);
    assert rest[2..] == [tc];
    LetterAlone(Plain, c);
  }

  /** A bold span with no text in it still cuts the run: `a****b` gives two
      plain runs, "a" and "b", and not one run "ab". */
  lemma EmptyBoldCuts(a: char, b: char)
    requires a !in " \n" && b !in " \n"
    ensures BuildRuns([Inline("text", [a], map[]), Inline("strong_open", "", map[]),
                       Inline("strong_close", "", map[]), Inline("text", [b], map[])])
         == [Run([a], Plain), Run([b], Plain)]
  {
    EmptyBoldSegments(a, b);
  }

  lemma EmptyBoldSegments(a: char, b: char)
    requires a !in " \n" && b !in " \n"
    ensures Segments(Plain, [Inline("text", [a], map[]), Inline("strong_open", "", map[]),
                             Inline("strong_close", "", map[]), Inline("text", [b], map[])])
         == [Run([a], Plain), Run([b], Plain)]
  {
    var tb := Inline("text", [b], map[]);
    var cs := [Inline("text", [a], map[]), Inline("strong_open", "", map[]), Inline("strong_close", "", map[]), tb];
    var rest := [Inline("strong_close", "", map[]), tb];
    LetterStretch(Plain, a, cs);
    assert cs[2..] == rest && rest[..0] == [] && rest[1..] == [tb];
    SegmentsAtToggle(Plain.(bold := true), rest, 0);
    LetterAlone(Plain, b);
  }

  /** A stretch of one letter before a toggle gives that letter's run. */
  lemma LetterStretch(st: Style, x: char, cs: seq<Inline>)
    requires x !in " \n" && |cs| >= 2 && cs[0] == Inline("text", [x], map[]) && IsToggle(cs[1].kind)
    ensures Segments(st, cs) == [Run([x], st)] + Segments(StyleAfter(st, cs[1]), cs[2..])
  {
    assert FirstToggle(cs) == 1 && cs[..1] == [cs[0]];
    LetterText(x);
    SegmentsAtToggle(st, cs, 1);
  }

  /** A lone letter gives one run. */
  lemma LetterAlone(st: Style, x: char)
    requires x !in " \n"
    ensures Segments(st, [Inline("text", [x], map[])]) == [Run([x], st)]
  {
    var cs := [Inline("text", [x], map[])];
    assert FirstToggle(cs) == 1 && cs[..1] == cs;
    LetterText(x);
  }

  /** A one-letter text child contributes that letter. */
  lemma LetterText(x: char)
    requires x !in " \n"
    ensures Contributions([Inline("text", [x], map[])]) == [x]
  {
    assert NewlinesToSpaces([x]) == [x];
    assert [x] + "" == [x];
  }
}

=== FILE: list_converter.dfy ===
/** `ListConverter.convert`: one list item (its list-open token and its content
    token) becomes one appended paragraph, and the session state moves on. */
module ListConverter {
  import opened Wrappers
  import opened Text
  import opened DocModel
  import opened InlineRuns
  import opened ListState

  /** Nesting level and kind of a list-open token. The level is only read from
      the indentation when the token also has a type. */
  function ListInfo(t: Token): (info: (int, bool))
    ensures info.0 >= 1
    ensures info.1 <==> t.kind == Some("ordered_list_open")
    ensures t.kind.None? || t.content.None? ==> info.0 == 1
    ensures t.kind.Some? && t.content.Some? ==> 2 * (info.0 - 1) <= |t.content.value| < 2 * info.0
  {
    if t.kind.None? then (1, false)
    else
      var level := if t.content.Some? then LevelOfIndent(t.content.value) else 1;
      (level, t.kind.value == "ordered_list_open")
  }

  /** An ordered-list token indented by four characters is an ordered level-3 item. */
  lemma ListInfoExample()
    ensures ListInfo(Token(Some("ordered_list_open"), Some("    "), None)) == (3, true)
    ensures ListInfo(Token(Some("bullet_list_open"), None, None)) == (1, false)
    ensures ListInfo(Token(None, Some("    "), None)) == (1, false)
  {
  }

  /** Paragraph style of an item: "List Number" or "List Bullet", followed by
      " <level>" below the first level. The name starts with the base name of
      the item's kind, only the first level uses the bare base name, and below
      it a space follows the base name and the decimal digits after it read
      back as the level. */
  function StyleName(level: int, ordered: bool): (name: string)
    requires level >= 1
    ensures StartsWith(name, if ordered then "List Number" else "List Bullet")
    ensures level == 1 <==> |name| == 11
    ensures level > 1 ==> && |name| > 12 && name[11] == ' '
                          && (forall i :: 12 <= i < |name| ==> IsDigit(name[i]))
                          && ParseDigits(name[12..]) == level
  {
    var base := if ordered then "List Number" else "List Bullet";
    ParseNatToString(level);
    if level > 1 then
      assert (base + " " + NatToString(level))[12..] == NatToString(level);
      base + " " + NatToString(level)
    else base
  }

  /** Distinct (level, kind) pairs get distinct style names. */
  lemma StyleNameInjective(l1: int, o1: bool, l2: int, o2: bool)
    requires l1 >= 1 && l2 >= 1
    ensures StyleName(l1, o1) == StyleName(l2, o2) ==> l1 == l2 && o1 == o2
  {
    var n1, n2 := StyleName(l1, o1), StyleName(l2, o2);
    if n1 == n2 {
      assert n1[5] == n2[5];
      assert o1 == o2;
      if l1 > 1 && l2 > 1 {
        assert n1[12..] == NatToString(l1);
        assert n2[12..] == NatToString(l2);
        NatToStringInjective(l1, l2);
      } else {
        assert |n1| == |n2|;
      }
    }
  }

  /** The numbering-definition id `_ensure_list_style` hands out: the built-in
      definition 1 for ordered items, none for bullets. */
  function NumberingId(ordered: bool): Option<int>
  {
    if ordered then Some(1) else None
  }

  /** Registers the paragraph style if the document does not have it yet. */
  function EnsureStyle(doc: Document, name: string): (d: Document)
    ensures d.paragraphs == doc.paragraphs
    ensures d.styles == doc.styles + {name}
  {
    if name in doc.styles then
      assert doc.styles + {name} == doc.styles;
      doc
    else doc.(styles := doc.styles + {name})
  }

  /** Only an ordered item with a numbering id gets a numbering reference, at the
      0-based level. */
  function NumberingRef(level: int, ordered: bool, numId: Option<int>): Option<NumRef>
  {
    if ordered && numId.Some? then Some(NumRef(numId.value, level - 1)) else None
  }

  /** The indentation writes of an item in order: the left indent by the level
      rule, the raw 360 twips per level on the XML element, the hanging first line
      on the XML element, and the level rule again with its hanging first line. */
  function ListIndentWrites(level: int): seq<IndentWrite>
  {
    [SetLeft(IndentStep * (level - 1)), SetLeft(IndentStep * level), SetFirstLine(-IndentStep)]
      + HangingIndentWrites(level)
  }

  /** Stripped content that marks a task item, finished by the task-list converter. */
  predicate IsTaskText(c: string) {
    StartsWith(c, "[ ] ") || StartsWith(c, "[x] ")
  }

  function HasChildren(content: Option<Token>): bool {
    content.Some? && content.value.children.Some? && |content.value.children.value| > 0
  }

  function StrippedContent(content: Option<Token>): Option<string> {
    if content.Some? && content.value.content.Some? then Some(Strip(content.value.content.value)) else None
  }

  /** The runs of an item's paragraph. A task item gets none; an item without
      children gets one plain run of its stripped content (empty when it has no
      string content); otherwise the children are folded into styled runs. */
  function ItemRuns(content: Option<Token>): (runs: seq<Run>)
    ensures StrippedContent(content).Some? && IsTaskText(StrippedContent(content).value) ==> runs == []
    ensures !HasChildren(content) && StrippedContent(content).None? ==> runs == [Run("", Plain)]
    ensures !HasChildren(content) && StrippedContent(content).Some? && !IsTaskText(StrippedContent(content).value)
            ==> runs == [Run(StrippedContent(content).value, Plain)]
    ensures HasChildren(content) && !(StrippedContent(content).Some? && IsTaskText(StrippedContent(content).value))
            ==> && runs == Segments(Plain, content.value.children.value)
                && Expand(runs) == Annotate(Plain, content.value.children.value)
                && NoEmptyRuns(runs)
  {
    var stripped := StrippedContent(content);
    if !HasChildren(content) then
      if stripped.Some? then
        if IsTaskText(stripped.value) then [] else [Run(stripped.value, Plain)]
      else [Run("", Plain)]
    else if stripped.Some? && IsTaskText(stripped.value) then []
    else
      var children := content.value.children.value;
      BuildRuns(children)
  }

  /** The paragraph of an item: its style, the indentation writes, the numbering
      reference and its runs. */
  function ItemParagraph(level: int, ordered: bool, content: Option<Token>): (p: Paragraph)
    requires level >= 1
    ensures p.style == Some(StyleName(level, ordered))
    ensures p.numbering.Some? <==> ordered
    ensures ordered ==> p.numbering == Some(NumRef(1, level - 1))
    ensures p.leftIndent == Some(IndentStep * (level - 1))
    ensures p.firstLineIndent == Some(-IndentStep)
    ensures p.runs == ItemRuns(content)
  {
    var shell := EmptyParagraph.(style := Some(StyleName(level, ordered)));
    var early := [SetLeft(IndentStep * (level - 1)), SetLeft(IndentStep * level), SetFirstLine(-IndentStep)];
    assert ListIndentWrites(level) == early + HangingIndentWrites(level);
    HangingIndentWins(shell, early, level);
    var p := ApplyIndents(shell, ListIndentWrites(level));
    p.(numbering := NumberingRef(level, ordered, NumberingId(ordered)), runs := ItemRuns(content))
  }

  /** The session state after an item of `level` and kind `ordered` whose
      list-open token has type `kind`. */
  function NextState(s: ListState, level: int, ordered: bool, kind: string): (t: ListState)
    requires level >= 1
    ensures t.lastType == Some(kind)
    ensures t.numbers == UpdateNumbers(s.numbers, level, ordered, NeedsRestart(s, level, ordered))
    ensures t.frames == UpdateFrames(s.frames, level, ordered, NumberingId(ordered))
    ensures t.frames[|t.frames| - 1] == Frame(level, ordered, NumberingId(ordered))
    ensures Valid(s) ==> Valid(t)
  {
    var numbers := UpdateNumbers(s.numbers, level, ordered, NeedsRestart(s, level, ordered));
    ListState(UpdateFrames(s.frames, level, ordered, NumberingId(ordered)), numbers, Some(kind))
  }

  /** Why converting an item fails: no document is set, or the list-open token
      has no type (read after the counters have been updated). */
  datatype ConvertError = DocumentNotSet | MissingType

  datatype Converted = Converted(doc: Document, state: ListState, para: Paragraph)

  /** One call of the converter: derive level and kind, decide on a restart,
      update counters and the last type, register the style, update the frame
      stack, then append the item's paragraph. */
  function Convert(doc: Option<Document>, s: ListState, open: Token, content: Option<Token>)
    : (r: Result<Converted, ConvertError>)
    ensures doc.None? ==> r == Failure(DocumentNotSet)
    ensures doc.Some? && open.kind.None? ==> r == Failure(MissingType)
    ensures doc.Some? && open.kind.Some? ==> r.Success?
    ensures r.Success? ==>
      var (level, ordered) := ListInfo(open);
      var o := r.value;
      && o.doc.paragraphs == doc.value.paragraphs + [o.para]
      && o.doc.styles == doc.value.styles + {StyleName(level, ordered)}
      && o.para == ItemParagraph(level, ordered, content)
      && o.state == NextState(s, level, ordered, open.kind.value)
  {
    if doc.None? then Failure(DocumentNotSet)
    else
      var (level, ordered) := ListInfo(open);
      if open.kind.None? then Failure(MissingType)
      else
        var d := EnsureStyle(doc.value, StyleName(level, ordered));
        var p := ItemParagraph(level, ordered, content);
        Success(Converted(d.(paragraphs := d.paragraphs + [p]), NextState(s, level, ordered, open.kind.value), p))
  }

  /** A token without a type reaches the failing read of its type with the state
      untouched: it counts as a bullet, which neither restarts nor counts. */
  lemma MissingTypeLeavesNoTrace(s: ListState, open: Token)
    requires open.kind.None?
    ensures ListInfo(open) == (1, false)
    ensures UpdateNumbers(s.numbers, 1, false, NeedsRestart(s, 1, false)) == s.numbers
  {
  }

  // ---------------------------------------------------------------------------
  // Numbering across items

  predicate IsTopOrdered(open: Token) {
    open.kind == Some("ordered_list_open") && ListInfo(open).0 == 1
  }

  /** The state right after an ordered top-level item: one ordered level-1 frame. */
  predicate InTopOrderedList(s: ListState) {
    && s.frames == [Frame(1, true, Some(1))]
    && s.lastType == Some("ordered_list_open")
    && 1 in s.numbers
  }

  /** After any ordered top-level item on a valid state, only that item's frame
      is open. */
  lemma AfterTopOrdered(doc: Document, s: ListState, open: Token, content: Option<Token>)
    requires Valid(s) && IsTopOrdered(open)
    ensures Convert(Some(doc), s, open, content).Success?
    ensures InTopOrderedList(Convert(Some(doc), s, open, content).value.state)
    ensures Valid(Convert(Some(doc), s, open, content).value.state)
  {
    var fs := NextState(s, 1, true, "ordered_list_open").frames;
    DepthBound(fs);
  }

  /** Two ordered top-level items in a row number consecutively. */
  lemma ConsecutiveTopOrdered(doc: Document, s: ListState, open: Token, content: Option<Token>)
    requires Valid(s) && InTopOrderedList(s) && IsTopOrdered(open)
    ensures Convert(Some(doc), s, open, content).Success?
    ensures Convert(Some(doc), s, open, content).value.state.numbers[1] == s.numbers[1] + 1
  {
    TopLevelRestart(s);
    assert !EndsWith("ordered_list_open", "heading_close");
  }

  /** An ordered item below the first level always starts at 1, whatever its
      parent's count. */
  lemma NestedOrderedStartsAtOne(doc: Document, s: ListState, open: Token, content: Option<Token>)
    requires open.kind == Some("ordered_list_open") && ListInfo(open).0 > 1
    ensures Convert(Some(doc), s, open, content).Success?
    ensures Convert(Some(doc), s, open, content).value.state.numbers[ListInfo(open).0] == 1
  {
  }

  /** An ordered top-level item right after a heading close starts at 1. The
      state records the type of whatever token was last passed as the list-open
      token, so this happens when a caller hands the converter a token whose type
      ends in `heading_close`. */
  lemma HeadingCloseRestarts(doc: Document, s: ListState, open: Token, content: Option<Token>)
    requires IsTopOrdered(open)
    requires s.lastType.Some? && EndsWith(s.lastType.value, "heading_close")
    ensures Convert(Some(doc), s, open, content).Success?
    ensures Convert(Some(doc), s, open, content).value.state.numbers[1] == 1
  {
  }

  /** The session state after a sequence of items: it depends on the list-open
      tokens alone, and a token without a type leaves it as it was. */
  function StateAfter(s: ListState, items: seq<(Token, Option<Token>)>): (t: ListState)
    ensures Valid(s) ==> Valid(t)
    decreases |items|
  {
    if |items| == 0 then s
    else
      var open := items[0].0;
      if open.kind.None? then StateAfter(s, items[1..])
      else
        var (level, ordered) := ListInfo(open);
        StateAfter(NextState(s, level, ordered, open.kind.value), items[1..])
  }

  /** Runs a sequence of items; an item that fails leaves document and state as
      they were. */
  function ConvertItems(doc: Document, s: ListState, items: seq<(Token, Option<Token>)>): (r: (Document, ListState))
    ensures |doc.paragraphs| <= |r.0.paragraphs| <= |doc.paragraphs| + |items|
    ensures r.0.paragraphs[..|doc.paragraphs|] == doc.paragraphs
    ensures r.1 == StateAfter(s, items)
    decreases |items|
  {
    if |items| == 0 then (doc, s)
    else
      match Convert(Some(doc), s, items[0].0, items[0].1)
      case Failure(_) => ConvertItems(doc, s, items[1..])
      case Success(o) =>
        var r := ConvertItems(o.doc, o.state, items[1..]);
        assert r.0.paragraphs[..|doc.paragraphs|] == r.0.paragraphs[..|o.doc.paragraphs|][..|doc.paragraphs|];
        r
  }

  /** An ordered top-level item moves the session on by one `NextState` step. */
  lemma StateAfterTopOrdered(s: ListState, items: seq<(Token, Option<Token>)>)
    requires |items| > 0 && IsTopOrdered(items[0].0)
    ensures StateAfter(s, items) == StateAfter(NextState(s, 1, true, "ordered_list_open"), items[1..])
  {
  }

  /** The step of an ordered top-level item inside an ordered top-level list. */
  lemma ContinueStep(s: ListState)
    requires InTopOrderedList(s)
    ensures InTopOrderedList(NextState(s, 1, true, "ordered_list_open"))
    ensures NextState(s, 1, true, "ordered_list_open").numbers[1] == s.numbers[1] + 1
  {
    assert !EndsWith("ordered_list_open", "heading_close") by {
      assert "ordered_list_open"[4] != "heading_close"[0];
    }
    assert !ScanRestart(s.frames, 1, true);
    assert !NeedsRestart(s, 1, true);
    assert PopDeeper(s.frames, 1) == s.frames;
    assert UpdateFrames(s.frames, 1, true, Some(1)) == [] + [Frame(1, true, Some(1))];
  }

  /** The step of an ordered top-level item when no list is open. */
  lemma FreshStep(s: ListState)
    requires |s.frames| == 0
    ensures InTopOrderedList(NextState(s, 1, true, "ordered_list_open"))
    ensures NextState(s, 1, true, "ordered_list_open").numbers[1] == 1
  {
    assert UpdateFrames(s.frames, 1, true, Some(1)) == [Frame(1, true, Some(1))];
  }

  /** Each further ordered top-level item in the same list counts one up. */
  lemma {:induction false} TopOrderedContinue(s: ListState, items: seq<(Token, Option<Token>)>)
    requires InTopOrderedList(s)
    requires forall i :: 0 <= i < |items| ==> IsTopOrdered(items[i].0)
    ensures InTopOrderedList(StateAfter(s, items))
    ensures StateAfter(s, items).numbers[1] == s.numbers[1] + |items|
    decreases |items|
  {
    if |items| > 0 {
      var next := NextState(s, 1, true, "ordered_list_open");
      StateAfterTopOrdered(s, items);
      ContinueStep(s);
      var rest := items[1..];
      forall i | 0 <= i < |rest|
        ensures IsTopOrdered(rest[i].0)
      {
        assert rest[i] == items[i + 1];
      }
      TopOrderedContinue(next, rest);
    }
  }

  /** With no list open (as in a fresh session), n ordered top-level items in a
      row are numbered 1 to n: after them the level-1 counter is n. */
  lemma {:induction false} TopOrderedFromFresh(s: ListState, items: seq<(Token, Option<Token>)>)
    requires |s.frames| == 0
    requires forall i :: 0 <= i < |items| ==> IsTopOrdered(items[i].0)
    ensures |items| > 0 ==> InTopOrderedList(StateAfter(s, items))
    ensures |items| > 0 ==> StateAfter(s, items).numbers[1] == |items|
  {
    if |items| > 0 {
      var next := NextState(s, 1, true, "ordered_list_open");
      StateAfterTopOrdered(s, items);
      FreshStep(s);
      var rest := items[1..];
      forall i | 0 <= i < |rest|
        ensures IsTopOrdered(rest[i].0)
      {
        assert rest[i] == items[i + 1];
      }
      TopOrderedContinue(next, rest);
      assert StateAfter(next, rest).numbers[1] == 1 + |rest|;
      assert 1 + |rest| == |items|;
    }
  }
}

=== FILE: list_state.dfy ===
/** Session state of the list converter and the three decisions made on it per
    list item: whether numbering restarts, how the per-level counters change and
    how the stack of open list frames changes. */
module ListState {
  import opened Wrappers
  import opened Text

  /** One open list level: its level, whether it is ordered, and its numbering id. */
  datatype Frame = Frame(level: int, ordered: bool, numId: Option<int>)

  /** The converter's session state: open frames from shallow to deep, the
      current number per level, and the type of the last open token seen. */
  datatype ListState = ListState(frames: seq<Frame>, numbers: map<int, int>, lastType: Option<string>)

  const Initial := ListState([], map[], None)

  /** Frame levels strictly increase from the bottom of the stack to the top. */
  predicate Increasing(frames: seq<Frame>) {
    forall i, j :: 0 <= i < j < |frames| ==> frames[i].level < frames[j].level
  }

  predicate LevelsPositive(frames: seq<Frame>) {
    forall i :: 0 <= i < |frames| ==> frames[i].level >= 1
  }

  predicate CountersPositive(numbers: map<int, int>) {
    forall k :: k in numbers ==> numbers[k] >= 1
  }

  /** The invariant every reachable session state keeps. */
  predicate Valid(s: ListState) {
    Increasing(s.frames) && LevelsPositive(s.frames) && CountersPositive(s.numbers)
  }

  /** A well-formed stack is never deeper than the level of its top frame. */
  lemma {:induction false} DepthBound(frames: seq<Frame>)
    requires Increasing(frames) && LevelsPositive(frames) && |frames| > 0
    ensures frames[|frames| - 1].level >= |frames|
    decreases |frames|
  {
    if |frames| > 1 {
      var below := frames[..|frames| - 1];
      DepthBound(below);
      assert below[|below| - 1].level < frames[|frames| - 1].level;
    }
  }

  // ---------------------------------------------------------------------------
  // Restart decision

  /** Frame `i` is at `level` with the same kind and only deeper frames lie above it. */
  predicate ResumableAt(frames: seq<Frame>, level: int, ordered: bool, i: int) {
    && 0 <= i < |frames|
    && frames[i].level == level
    && frames[i].ordered == ordered
    && forall j :: i < j < |frames| ==> frames[j].level > level
  }

  predicate Resumable(frames: seq<Frame>, level: int, ordered: bool) {
    exists i :: 0 <= i < |frames| && ResumableAt(frames, level, ordered, i)
  }

  /** The stack scan for an ordered top-level item: from the top, skip deeper
      frames; the first frame at the same level continues the sequence when its
      kind matches; a shallower frame or an exhausted stack restarts it. So the
      scan continues numbering exactly when some frame of the same level and kind
      has only deeper frames above it. */
  function ScanRestart(frames: seq<Frame>, level: int, ordered: bool): (restart: bool)
    ensures !restart <==> Resumable(frames, level, ordered)
    decreases |frames|
  {
    if |frames| == 0 then true
    else
      var top := frames[|frames| - 1];
      ResumableTop(frames, level, ordered);
      if top.level == level then top.ordered != ordered
      else if top.level > level then ScanRestart(frames[..|frames| - 1], level, ordered)
      else true
  }

  /** What the top frame says about resuming: a frame at the level decides by
      its kind, a deeper frame defers to the frames below it, and a shallower
      frame rules it out. */
  lemma ResumableTop(frames: seq<Frame>, level: int, ordered: bool)
    requires |frames| > 0
    ensures var n := |frames| - 1;
      && (frames[n].level == level ==> (Resumable(frames, level, ordered) <==> frames[n].ordered == ordered))
      && (frames[n].level > level ==> (Resumable(frames, level, ordered) <==> Resumable(frames[..n], level, ordered)))
      && (frames[n].level < level ==> !Resumable(frames, level, ordered))
  {
    var n := |frames| - 1;
    var top := frames[n];
    var below := frames[..n];
    if top.level == level {
      if top.ordered == ordered {
        assert ResumableAt(frames, level, ordered, n);
      } else {
        forall i | 0 <= i < |frames|
          ensures !ResumableAt(frames, level, ordered, i)
        {
          if i < n {
            assert frames[n].level == level;
          }
        }
      }
    } else if top.level > level {
      forall i | 0 <= i < n
        ensures ResumableAt(frames, level, ordered, i) <==> ResumableAt(below, level, ordered, i)
      {
      }
      assert !ResumableAt(frames, level, ordered, n);
    } else {
      forall i | 0 <= i < |frames|
        ensures !ResumableAt(frames, level, ordered, i)
      {
        if i < n {
          assert frames[n].level < level;
        }
      }
    }
  }

  /** On a well-formed stack the scan continues numbering exactly when a frame
      of the same level and kind is open. */
  lemma ScanRestartOnIncreasing(frames: seq<Frame>, level: int, ordered: bool)
    requires Increasing(frames)
    ensures !ScanRestart(frames, level, ordered)
        <==> exists i :: 0 <= i < |frames| && frames[i].level == level && frames[i].ordered == ordered
  {
    if exists i :: 0 <= i < |frames| && frames[i].level == level && frames[i].ordered == ordered {
      var i :| 0 <= i < |frames| && frames[i].level == level && frames[i].ordered == ordered;
      assert ResumableAt(frames, level, ordered, i);
    }
  }

  /** Whether an item of `level` and kind `ordered` restarts numbering at 1. */
  function NeedsRestart(s: ListState, level: int, ordered: bool): (r: bool)
    ensures !ordered ==> !r
    ensures ordered && level > 1 ==> r
    ensures ordered && |s.frames| == 0 ==> r
    ensures ordered && s.lastType.Some? && EndsWith(s.lastType.value, "heading_close") ==> r
  {
    if !ordered then false
    else if level > 1 then true
    else if |s.frames| == 0 then true
    else if s.lastType.Some? && EndsWith(s.lastType.value, "heading_close") then true
    else ScanRestart(s.frames, level, ordered)
  }

  /** For an ordered top-level item on a valid state, numbering continues exactly
      when the bottom frame is an ordered level-1 frame and the last open token
      was not a heading close. */
  lemma TopLevelRestart(s: ListState)
    requires Valid(s)
    ensures !NeedsRestart(s, 1, true)
        <==> (&& |s.frames| > 0
              && s.frames[0].level == 1 && s.frames[0].ordered
              && !(s.lastType.Some? && EndsWith(s.lastType.value, "heading_close")))
  {
    if |s.frames| > 0 {
      ScanRestartOnIncreasing(s.frames, 1, true);
      forall i | 0 < i < |s.frames|
        ensures s.frames[i].level > 1
      {
        assert s.frames[0].level < s.frames[i].level;
      }
    }
  }

  // ---------------------------------------------------------------------------
  // Counters

  /** The per-level counters after an item: a restart sets the level's counter to
      1, an ordered continuation increments it (or starts it at 1), and a bullet
      item changes nothing. */
  function UpdateNumbers(numbers: map<int, int>, level: int, ordered: bool, restart: bool): (r: map<int, int>)
    ensures forall k :: k != level ==> (k in r <==> k in numbers)
    ensures forall k :: k != level && k in numbers ==> r[k] == numbers[k]
    ensures restart ==> level in r && r[level] == 1
    ensures !restart && ordered ==> level in r && r[level] == (if level in numbers then numbers[level] + 1 else 1)
    ensures !restart && !ordered ==> r == numbers
    ensures CountersPositive(numbers) ==> CountersPositive(r)
  {
    if restart then numbers[level := 1]
    else if ordered then
      if level !in numbers then numbers[level := 1] else numbers[level := numbers[level] + 1]
    else numbers
  }

  // ---------------------------------------------------------------------------
  // Frame stack

  /** Pops every frame deeper than `level` off the top. */
  function PopDeeper(frames: seq<Frame>, level: int): (r: seq<Frame>)
    ensures |r| <= |frames| && r == frames[..|r|]
    ensures forall i :: |r| <= i < |frames| ==> frames[i].level > level
    ensures |r| == 0 || r[|r| - 1].level <= level
    decreases |frames|
  {
    if |frames| > 0 && frames[|frames| - 1].level > level then PopDeeper(frames[..|frames| - 1], level)
    else frames
  }

  /** Pops the deeper frames, then replaces the top frame when it is at `level`
      and pushes a new frame otherwise. */
  function UpdateFrames(frames: seq<Frame>, level: int, ordered: bool, numId: Option<int>): (r: seq<Frame>)
    ensures 1 <= |r| <= |frames| + 1 && r[|r| - 1] == Frame(level, ordered, numId)
    ensures r[..|r| - 1] == frames[..|r| - 1]
    ensures Increasing(frames) ==> Increasing(r)
    ensures LevelsPositive(frames) && level >= 1 ==> LevelsPositive(r)
  {
    var kept := PopDeeper(frames, level);
    var n := if |kept| > 0 && kept[|kept| - 1].level == level then |kept| - 1 else |kept|;
    var base := frames[..n];
    assert base == kept[..n];
    assert Increasing(frames) && n > 0 ==> frames[n - 1].level < level by {
      if Increasing(frames) && n > 0 && n < |kept| {
        assert frames[n - 1].level < frames[n].level;
      }
    }
    PushKeepsOrder(frames, n, Frame(level, ordered, numId));
    var r := base + [Frame(level, ordered, numId)];
    assert r[..|r| - 1] == base;
    r
  }

  /** Pushing a frame deeper than the prefix `frames[..n]` on top of it keeps the
      stack well-formed. */
  lemma PushKeepsOrder(frames: seq<Frame>, n: nat, f: Frame)
    requires n <= |frames|
    ensures Increasing(frames) && (n == 0 || frames[n - 1].level < f.level) ==> Increasing(frames[..n] + [f])
    ensures LevelsPositive(frames) && f.level >= 1 ==> LevelsPositive(frames[..n] + [f])
  {
    var r := frames[..n] + [f];
    if Increasing(frames) && (n == 0 || frames[n - 1].level < f.level) {
      forall i, j | 0 <= i < j < |r|
        ensures r[i].level < r[j].level
      {
        if j < n {
          assert r[i] == frames[i] && r[j] == frames[j];
        } else if i < n - 1 {
          assert r[i].level < frames[n - 1].level;
        }
      }
    }
  }

  /** The frames strictly shallower than `level`, in stack order. */
  function Shallower(frames: seq<Frame>, level: int): (r: seq<Frame>)
    ensures forall i :: 0 <= i < |r| ==> r[i].level < level
  {
    if |frames| == 0 then []
    else if frames[0].level < level then [frames[0]] + Shallower(frames[1..], level)
    else Shallower(frames[1..], level)
  }

  lemma {:induction false} ShallowerPrefix(frames: seq<Frame>, level: int, k: nat)
    requires Increasing(frames)
    requires k <= |frames|
    requires forall i :: 0 <= i < k ==> frames[i].level < level
    requires forall i :: k <= i < |frames| ==> frames[i].level >= level
    ensures Shallower(frames, level) == frames[..k]
    decreases |frames|
  {
    if |frames| > 0 {
      ShallowerPrefix(frames[1..], level, if k > 0 then k - 1 else 0);
      if k > 0 {
        assert frames[..k] == [frames[0]] + frames[1..][..k - 1];
      }
    }
  }

  /** On a well-formed stack, the update keeps exactly the frames shallower than
      the item, unchanged and in order, and puts the item's frame on top. */
  lemma UpdateFramesKeepsShallower(frames: seq<Frame>, level: int, ordered: bool, numId: Option<int>)
    requires Increasing(frames)
    ensures UpdateFrames(frames, level, ordered, numId) == Shallower(frames, level) + [Frame(level, ordered, numId)]
  {
    var kept := PopDeeper(frames, level);
    var k := if |kept| > 0 && kept[|kept| - 1].level == level then |kept| - 1 else |kept|;
    forall i | 0 <= i < k
      ensures frames[i].level < level
    {
      if |kept| > 0 {
        assert frames[i].level <= frames[|kept| - 1].level;
      }
    }
    ShallowerPrefix(frames, level, k);
  }
}

=== FILE: preview.dfy ===
/** `generate_preview_html`: a line-by-line preview of Markdown text. Every
    line is stripped, blank lines are dropped, and each remaining line becomes one
    line of HTML chosen by its prefix; the HTML lines are joined by newlines. */
module Preview {
  import opened Text

  /** The branch a stripped, non-blank line takes, in the order they are tried. */
  datatype LineKind = Heading | BulletItem | OrderedItem | InlineCode | FenceMarker | Para

  function Classify(line: string): LineKind
    requires line != []
  {
    if StartsWith(line, "#") then Heading
    else if StartsWith(line, "- ") || StartsWith(line, "* ") then BulletItem
    else if IsDigit(line[0]) && |line| >= 3 && line[1..3] == ". " then OrderedItem
    else if StartsWith(line, "```") then
      if Contains(line[3..], "```") then InlineCode else FenceMarker
    else Para
  }

  /** `<tag>` + body + `</tag>`. */
  function Wrap(tag: string, body: string): string {
    "<" + tag + ">" + body + "</" + tag + ">"
  }

  /** The HTML line for one stripped, non-blank line. A heading's level is the
      length of the line's first whitespace-separated word. */
  function RenderLine(line: string): string
    requires line != []
  {
    match Classify(line)
    case Heading => Wrap("h" + NatToString(WordLength(line)), Strip(LStripChar(line, '#')))
    case BulletItem => Wrap("li", Strip(line[2..]))
    case OrderedItem => Wrap("li", Strip(line[3..]))
    case InlineCode => Wrap("code", line[3..|line| - 3])
    case FenceMarker => "<pre><code>"
    case Para => Wrap("p", line)
  }

  // ---------------------------------------------------------------------------
  // What each kind of line renders to

  /** `k` hash characters. */
  function Hashes(k: nat): (h: string)
    ensures |h| == k && forall i :: 0 <= i < k ==> h[i] == '#'
  {
    seq(k, _ => '#')
  }

  lemma {:induction false} WordLengthBeforeSpace(word: string, rest: string)
    requires forall i :: 0 <= i < |word| ==> !IsSpace(word[i])
    ensures WordLength(word + " " + rest) == |word|
    decreases |word|
  {
    if |word| == 0 {
      assert (word + " " + rest)[0] == ' ';
    } else {
      assert (word + " " + rest)[1..] == word[1..] + " " + rest;
      WordLengthBeforeSpace(word[1..], rest);
    }
  }

  lemma {:induction false} LStripHashes(k: nat, rest: string)
    requires rest == [] || rest[0] != '#'
    ensures LStripChar(Hashes(k) + rest, '#') == rest
    decreases k
  {
    if k == 0 {
      assert Hashes(k) + rest == rest;
    } else {
      assert (Hashes(k) + rest)[1..] == Hashes(k - 1) + rest;
      LStripHashes(k - 1, rest);
    }
  }

  /** A line starting with `#` renders as a heading. */
  lemma HeadingLine(line: string)
    requires line != [] && line[0] == '#'
    ensures RenderLine(line) == Wrap("h" + NatToString(WordLength(line)), Strip(LStripChar(line, '#')))
  {
    assert StartsWith(line, "#");
  }

  /** `#`×k, a space and a title give an `h`k heading whose body is the stripped
      title: for headings written with a space the level counts the hashes. */
  lemma HeadingLevelCountsHashes(k: nat, title: string)
    requires k >= 1
    ensures RenderLine(Hashes(k) + " " + title) == Wrap("h" + NatToString(k), Strip(title))
  {
    var line := Hashes(k) + " " + title;
    assert line[0] == '#';
    assert StartsWith(line, "#");
    WordLengthBeforeSpace(Hashes(k), title);
    assert line == Hashes(k) + (" " + title);
    LStripHashes(k, " " + title);
    StripAfterSpace(' ', title);
    assert " " + title == [' '] + title;
  }

  lemma {:induction false} WordLengthWhole(word: string)
    requires forall i :: 0 <= i < |word| ==> !IsSpace(word[i])
    ensures WordLength(word) == |word|
    decreases |word|
  {
    if |word| > 0 {
      WordLengthWhole(word[1..]);
    }
  }

  /** Without a space after the hash the level is the length of the whole first
      word, hash included: `#Title` becomes an `h6` holding `Title`. */
  lemma HeadingWithoutSpace(word: string)
    requires word != [] && word[0] != '#'
    requires forall i :: 0 <= i < |word| ==> !IsSpace(word[i])
    ensures RenderLine("#" + word) == Wrap("h" + NatToString(|word| + 1), word)
  {
    HeadingLine("#" + word);
    HashWordLength(word);
    HashWordTitle(word);
  }

  lemma HashWordLength(word: string)
    requires forall i :: 0 <= i < |word| ==> !IsSpace(word[i])
    ensures WordLength("#" + word) == |word| + 1
  {
    var line := "#" + word;
    forall i | 0 <= i < |line|
      ensures !IsSpace(line[i])
    {
      if i > 0 {
        assert line[i] == word[i - 1];
      }
    }
    WordLengthWhole(line);
  }

  lemma HashWordTitle(word: string)
    requires word != [] && word[0] != '#'
    requires forall i :: 0 <= i < |word| ==> !IsSpace(word[i])
    ensures Strip(LStripChar("#" + word, '#')) == word
  {
    var line := "#" + word;
    assert line[1..] == word;
    assert LStripChar(line, '#') == LStripChar(word, '#') == word;
    StripStripped(word);
  }

  /** `#Title` renders as a level-6 heading: the level counts the whole word. */
  lemma HeadingWithoutSpaceExample(line: string)
    requires line == "#Title"
    ensures RenderLine(line) == "<h6>Title</h6>"
  {
    var word := "Title";
    TitleIsOneWord(word);
    HeadingWithoutSpace(word);
    assert line == "#" + word;
    SixTitle();
  }

  /** `Title` is one word that does not start with `#`. */
  lemma TitleIsOneWord(word: string)
    requires word == "Title"
    ensures word != [] && word[0] != '#'
    ensures forall i :: 0 <= i < |word| ==> !IsSpace(word[i])
  {
    assert word[0] == 'T' && word[1] == 'i' && word[2] == 't' && word[3] == 'l' && word[4] == 'e';
  }

  /** The heading tag of a six-character first word is `h6`. */
  lemma SixTitle()
    ensures Wrap("h" + NatToString(6), "Title") == "<h6>Title</h6>"
  {
    assert NatToString(6) == "6";
  }

  /** `- ` or `* ` followed by text gives a list item holding the stripped text. */
  lemma BulletLine(marker: char, text: string)
    requires marker == '-' || marker == '*'
    ensures RenderLine([marker, ' '] + text) == Wrap("li", Strip(text))
  {
    var line := [marker, ' '] + text;
    assert line[..1] == [marker];
    assert !StartsWith(line, "#");
    assert StartsWith(line, "- ") || StartsWith(line, "* ");
    assert Classify(line) == BulletItem;
    assert line[2..] == text;
  }

  /** One digit, `. ` and text give a list item holding the stripped text. */
  lemma OrderedLine(digit: char, text: string)
    requires IsDigit(digit)
    ensures RenderLine([digit, '.', ' '] + text) == Wrap("li", Strip(text))
  {
    var line := [digit, '.', ' '] + text;
    assert !StartsWith(line, "#");
    assert !StartsWith(line, "- ") && !StartsWith(line, "* ");
    assert line[1..3] == ". ";
    assert Classify(line) == OrderedItem;
    assert line[3..] == text;
  }

  /** Only a single digit is recognised: `10. x` is a paragraph. */
  lemma TwoDigitsIsParagraph()
    ensures RenderLine("10. x") == "<p>10. x</p>"
  {
    assert !StartsWith("10. x", "#");
    assert !StartsWith("10. x", "- ") && !StartsWith("10. x", "* ");
    assert "10. x"[1..3] == "0.";
    assert !StartsWith("10. x", "```");
    assert Classify("10. x") == Para;
  }

  /** A fenced span on one line gives inline code with the text between the fences
      kept verbatim. */
  lemma InlineCodeLine(body: string)
    ensures RenderLine("```" + body + "```") == Wrap("code", body)
  {
    var line := "```" + body + "```";
    assert line[..3] == "```";
    assert line[..1] == "`";
    assert !StartsWith(line, "#");
    assert !StartsWith(line, "- ") && !StartsWith(line, "* ");
    assert !IsDigit(line[0]);
    assert line[3..] == body + "```";
    assert OccursAt(line[3..], "```", |body|);
    assert Classify(line) == InlineCode;
    assert line[3..|line| - 3] == body;
  }

  /** A fence without a closing fence on the same line opens a code block,
      whatever language name follows it. */
  lemma FenceLine(info: string)
    requires forall i :: 0 <= i < |info| ==> info[i] != '`'
    ensures RenderLine("```" + info) == "<pre><code>"
  {
    var line := "```" + info;
    assert line[..3] == "```";
    assert line[..1] == "`";
    assert !StartsWith(line, "#");
    assert !StartsWith(line, "- ") && !StartsWith(line, "* ");
    assert !IsDigit(line[0]);
    assert line[3..] == info;
    forall i | 0 <= i <= |info| - 3
      ensures !OccursAt(info, "```", i)
    {
      assert info[i] != '`';
    }
    assert Classify(line) == FenceMarker;
  }

  /** A line is wrapped in `<p>` verbatim, its markup unescaped, exactly when it
      opens none of the other branches: no `#` in front, no `- ` or `* ` in
      front, not one digit followed by `. `, and no three backticks in front. */
  lemma ParagraphLine(line: string)
    requires line != []
    ensures RenderLine(line) == Wrap("p", line)
        <==> && !StartsWith(line, "#")
             && !StartsWith(line, "- ") && !StartsWith(line, "* ")
             && !(IsDigit(line[0]) && |line| >= 3 && line[1..3] == ". ")
             && !StartsWith(line, "```")
  {
    var r := RenderLine(line);
    var p := Wrap("p", line);
    assert p[1] == 'p' && p[2] == '>';
    match Classify(line)
    case Heading => assert r[1] == 'h';
    case BulletItem => assert r[1] == 'l';
    case OrderedItem => assert r[1] == 'l';
    case InlineCode => assert r[1] == 'c';
    case FenceMarker => assert r[2] == 'r';
    case Para =>
  }

  /** A line starting with three backticks is code: inline code holding the text
      between the fences when three more backticks follow somewhere after the
      opening ones, the code-block marker otherwise. */
  lemma CodeLine(line: string)
    requires StartsWith(line, "```")
    ensures Contains(line[3..], "```") ==> RenderLine(line) == Wrap("code", line[3..|line| - 3])
    ensures !Contains(line[3..], "```") ==> RenderLine(line) == "<pre><code>"
  {
    assert line[..1] == "`";
    assert !StartsWith(line, "#");
    assert !StartsWith(line, "- ") && !StartsWith(line, "* ");
    assert !IsDigit(line[0]);
  }

  // ---------------------------------------------------------------------------
  // The loop

  /** The stripped non-blank lines, in order. */
  function Kept(lines: seq<string>): (r: seq<string>)
    ensures |r| <= |lines|
    ensures forall k :: 0 <= k < |r| ==> r[k] != []
  {
    if |lines| == 0 then []
    else
      var l := Strip(lines[|lines| - 1]);
      Kept(lines[..|lines| - 1]) + (if l == [] then [] else [l])
  }

  /** Each kept line rendered, position by position. */
  function RenderAll(kept: seq<string>): seq<string>
    requires forall k :: 0 <= k < |kept| ==> kept[k] != []
  {
    seq(|kept|, k requires 0 <= k < |kept| => RenderLine(kept[k]))
  }

  lemma RenderAllSnoc(kept: seq<string>, line: string)
    requires forall k :: 0 <= k < |kept| ==> kept[k] != []
    requires line != []
    ensures RenderAll(kept + [line]) == RenderAll(kept) + [RenderLine(line)]
  {
    var a, b := RenderAll(kept + [line]), RenderAll(kept) + [RenderLine(line)];
    assert |a| == |b|;
    forall k | 0 <= k < |a|
      ensures a[k] == b[k]
    {
      if k < |kept| {
        assert (kept + [line])[k] == kept[k];
      }
    }
  }

  /** The preview: the rendered kept lines joined by newlines. Splitting the
      result at newlines gives back exactly one HTML line per non-blank input line,
      in input order; text without non-blank lines gives the empty string. */
  method GeneratePreviewHtml(markdown: string) returns (html: string)
    ensures Kept(Split(markdown, '\n')) == [] ==> html == ""
    ensures Kept(Split(markdown, '\n')) != [] ==> Split(html, '\n') == RenderAll(Kept(Split(markdown, '\n')))
  {
    var lines := Split(markdown, '\n');
    var htmlLines: seq<string> := [];
    var i := 0;
    while i < |lines|
      invariant 0 <= i <= |lines|
      invariant htmlLines == RenderKept(lines[..i])
    {
      var line := Strip(lines[i]);
      assert lines[..i + 1][..i] == lines[..i];
      if line != [] {
        htmlLines := htmlLines + [RenderLine(line)];
      }
      i := i + 1;
    }
    assert lines[..|lines|] == lines;
    RenderKeptMeaning(lines);
    html := Join(htmlLines, '\n');
    if htmlLines != [] {
      RenderedLinesSplit(lines);
    }
  }

  /** The loop's accumulated output: the rendering of each non-blank line. */
  function RenderKept(lines: seq<string>): seq<string>
  {
    if |lines| == 0 then []
    else
      var l := Strip(lines[|lines| - 1]);
      RenderKept(lines[..|lines| - 1]) + (if l == [] then [] else [RenderLine(l)])
  }

  /** The accumulated output is the rendering of the kept lines. */
  lemma {:induction false} RenderKeptMeaning(lines: seq<string>)
    ensures RenderKept(lines) == RenderAll(Kept(lines))
  {
    if |lines| > 0 {
      var init := lines[..|lines| - 1];
      var l := Strip(lines[|lines| - 1]);
      RenderKeptMeaning(init);
      if l != [] {
        RenderAllSnoc(Kept(init), l);
      } else {
        assert Kept(lines) == Kept(init) + [];
      }
    }
  }

  /** The rendered lines hold no newline, so joining and splitting them again
      gives them back. */
  lemma RenderedLinesSplit(lines: seq<string>)
    requires forall k :: 0 <= k < |lines| ==> '\n' !in lines[k]
    requires Kept(lines) != []
    ensures Split(Join(RenderAll(Kept(lines)), '\n'), '\n') == RenderAll(Kept(lines))
  {
    forall k | 0 <= k < |lines|
      ensures NoNewline(lines[k])
    {
    }
    KeptHasNoNewline(lines);
    RenderedHasNoNewline(Kept(lines));
    SplitJoin(RenderAll(Kept(lines)), '\n');
  }

  // ---------------------------------------------------------------------------
  // No rendered line contains a newline

  predicate NoNewline(s: string) {
    forall k :: 0 <= k < |s| ==> s[k] != '\n'
  }

  lemma {:induction false} KeptHasNoNewline(lines: seq<string>)
    requires forall k :: 0 <= k < |lines| ==> NoNewline(lines[k])
    ensures forall k :: 0 <= k < |Kept(lines)| ==> NoNewline(Kept(lines)[k])
  {
    if |lines| > 0 {
      KeptHasNoNewline(lines[..|lines| - 1]);
      StripHasNoNewline(lines[|lines| - 1]);
    }
  }

  lemma SliceHasNoNewline(s: string, i: int, j: int)
    requires NoNewline(s)
    requires 0 <= i <= j <= |s|
    ensures NoNewline(s[i..j])
  {
    forall k | 0 <= k < j - i
      ensures s[i..j][k] != '\n'
    {
      assert s[i..j][k] == s[i + k];
    }
  }

  lemma StripHasNoNewline(s: string)
    requires NoNewline(s)
    ensures NoNewline(Strip(s))
  {
    SliceHasNoNewline(s, StripBounds(s).0, StripBounds(s).1);
  }

  lemma LStripCharHasNoNewline(s: string, c: char)
    requires NoNewline(s)
    ensures NoNewline(LStripChar(s, c))
  {
    var r := LStripChar(s, c);
    forall k | 0 <= k < |r|
      ensures r[k] != '\n'
    {
      assert r[k] == s[|s| - |r| + k];
    }
  }

  lemma HeadingHasNoNewline(line: string)
    requires NoNewline(line)
    ensures NoNewline(Strip(LStripChar(line, '#')))
    ensures NoNewline(NatToString(WordLength(line)))
  {
    LStripCharHasNoNewline(line, '#');
    StripHasNoNewline(LStripChar(line, '#'));
  }

  lemma ConcatHasNoNewline(a: string, b: string)
    requires NoNewline(a) && NoNewline(b)
    ensures NoNewline(a + b)
  {
    forall k | 0 <= k < |a + b|
      ensures (a + b)[k] != '\n'
    {
      if k < |a| {
        assert (a + b)[k] == a[k];
      } else {
        assert (a + b)[k] == b[k - |a|];
      }
    }
  }

  lemma WrapHasNoNewline(tag: string, body: string)
    requires NoNewline(tag) && NoNewline(body)
    ensures NoNewline(Wrap(tag, body))
  {
    ConcatHasNoNewline("<", tag);
    ConcatHasNoNewline("<" + tag, ">");
    ConcatHasNoNewline("<" + tag + ">", body);
    ConcatHasNoNewline("</", tag);
    ConcatHasNoNewline("</" + tag, ">");
    ConcatHasNoNewline("<" + tag + ">" + body, "</" + tag + ">");
    assert Wrap(tag, body) == ("<" + tag + ">" + body) + ("</" + tag + ">");
  }

  lemma HeadingLineHasNoNewline(line: string)
    requires line != [] && NoNewline(line) && Classify(line) == Heading
    ensures NoNewline(RenderLine(line))
  {
    HeadingHasNoNewline(line);
    ConcatHasNoNewline("h", NatToString(WordLength(line)));
    WrapHasNoNewline("h" + NatToString(WordLength(line)), Strip(LStripChar(line, '#')));
  }

  lemma ItemLineHasNoNewline(line: string)
    requires line != [] && NoNewline(line)
    requires Classify(line) == BulletItem || Classify(line) == OrderedItem
    ensures NoNewline(RenderLine(line))
  {
    var from := if Classify(line) == BulletItem then 2 else 3;
    SliceHasNoNewline(line, from, |line|);
    StripHasNoNewline(line[from..]);
    WrapHasNoNewline("li", Strip(line[from..]));
  }

  lemma CodeLineHasNoNewline(line: string)
    requires line != [] && NoNewline(line) && Classify(line) == InlineCode
    ensures NoNewline(RenderLine(line))
  {
    SliceHasNoNewline(line, 3, |line| - 3);
    WrapHasNoNewline("code", line[3..|line| - 3]);
  }

  /** A line without a newline renders to a line without a newline. */
  lemma RenderLineHasNoNewline(line: string)
    requires line != [] && NoNewline(line)
    ensures NoNewline(RenderLine(line))
  {
    match Classify(line)
    case Heading => HeadingLineHasNoNewline(line);
    case BulletItem => ItemLineHasNoNewline(line);
    case OrderedItem => ItemLineHasNoNewline(line);
    case InlineCode => CodeLineHasNoNewline(line);
    case FenceMarker =>
    case Para => WrapHasNoNewline("p", line);
  }

  lemma RenderedHasNoNewline(kept: seq<string>)
    requires forall k :: 0 <= k < |kept| ==> kept[k] != [] && NoNewline(kept[k])
    ensures forall k :: 0 <= k < |RenderAll(kept)| ==> '\n' !in RenderAll(kept)[k]
  {
    forall k | 0 <= k < |kept|
      ensures '\n' !in RenderAll(kept)[k]
    {
      RenderLineHasNoNewline(kept[k]);
    }
  }
}

=== FILE: task_list.dfy ===
/** `TaskListConverter`: a list item whose content starts with a `[ ]` or `[x]`
    marker becomes a plain paragraph holding one run, the checkbox glyph followed
    by the item's text, indented by the same level rule as ordinary list items
    and carrying no list style and no numbering reference. */
module TaskList {
  import opened Wrappers
  import opened Text
  import opened DocModel

  /** Where the task marker sits in a string: the index of its `[`, whether it is
      checked, and the length of the matched prefix including trailing whitespace. */
  datatype Marker = Marker(open: nat, checked: bool, length: nat)

  /** The character between the brackets of a marker. */
  function MarkChar(checked: bool): char {
    if checked then 'x' else ' '
  }

  /** Matches the pattern `^\s*\[([ x])\]\s*` at the start of `s`. A match is
      leading whitespace, `[`, a space or a lower-case `x`, `]` and trailing
      whitespace, and the text after it does not start with whitespace. */
  function MatchMarker(s: string): (m: Option<Marker>)
    ensures m.Some? ==>
      && m.value.open + 3 <= m.value.length <= |s|
      && SpacesBetween(s, 0, m.value.open)
      && s[m.value.open] == '[' && s[m.value.open + 1] == MarkChar(m.value.checked) && s[m.value.open + 2] == ']'
      && SpacesBetween(s, m.value.open + 3, m.value.length)
      && (m.value.length == |s| || !IsSpace(s[m.value.length]))
  {
    var lead := SpaceEnd(s, 0);
    if lead + 3 <= |s| && s[lead] == '[' && (s[lead + 1] == ' ' || s[lead + 1] == 'x') && s[lead + 2] == ']' then
      Some(Marker(lead, s[lead + 1] == 'x', SpaceEnd(s, lead + 3)))
    else None
  }

  /** Every marker is recognised: whitespace, `[`, space or `x`, `]`, whitespace,
      then text that does not start with whitespace. */
  lemma MarkerRecognised(ws1: string, checked: bool, ws2: string, text: string)
    requires AllSpace(ws1) && AllSpace(ws2)
    requires text == [] || !IsSpace(text[0])
    ensures MatchMarker(ws1 + ['[', MarkChar(checked), ']'] + ws2 + text)
         == Some(Marker(|ws1|, checked, |ws1| + 3 + |ws2|))
  {
    var s := ws1 + ['[', MarkChar(checked), ']'] + ws2 + text;
    var n := |ws1|;
    forall k | 0 <= k < n
      ensures IsSpace(s[k])
    {
      assert s[k] == ws1[k];
    }
    assert s[n] == '[' && s[n + 1] == MarkChar(checked) && s[n + 2] == ']';
    SpaceEndAt(s, 0, n);
    forall k | n + 3 <= k < n + 3 + |ws2|
      ensures IsSpace(s[k])
    {
      assert s[k] == ws2[k - n - 3];
    }
    assert n + 3 + |ws2| == |s| || s[n + 3 + |ws2|] == text[0];
    SpaceEndAt(s, n + 3, n + 3 + |ws2|);
  }

  /** Only a lower-case `x` marks a task as done; `[X]` is no marker at all. */
  lemma UpperCaseIsNoMarker()
    ensures MatchMarker("[X] a") == None
    ensures MatchMarker("  [x]  done") == Some(Marker(2, true, 7))
  {
    assert SpaceEnd("[X] a", 0) == 0;
    MarkerRecognised("  ", true, "  ", "done");
    assert "  " + ['[', MarkChar(true), ']'] + "  " + "done" == "  [x]  done";
  }

  /** The content with its leading marker removed; unchanged when there is none.
      What is removed is exactly the matched marker, so the rest does not start
      with whitespace. */
  function StripMarker(s: string): (r: string)
    ensures |r| <= |s| && r == s[|s| - |r|..]
    ensures MatchMarker(s).None? ==> r == s
    ensures MatchMarker(s).Some? ==> |s| - |r| == MatchMarker(s).value.length && (r == [] || !IsSpace(r[0]))
  {
    match MatchMarker(s)
    case Some(m) => s[m.length..]
    case None => s
  }

  /** Value of a `checkbox_input` child's `checked` attribute, false when absent. */
  function CheckedAttr(child: Inline): bool {
    "checked" in child.attrs && child.attrs["checked"]
  }

  /** The text one child adds: nothing for a checkbox, otherwise its content
      with its own leading marker removed. */
  function Piece(child: Inline): string {
    if child.kind == "checkbox_input" then "" else StripMarker(child.content)
  }

  /** The effect of one child on the loop's (checked, text) pair: a checkbox
      child sets the state from its `checked` attribute. */
  function Step(acc: (bool, string), child: Inline): (bool, string) {
    (if child.kind == "checkbox_input" then CheckedAttr(child) else acc.0, acc.1 + Piece(child))
  }

  /** The children loop, front to back. */
  function FoldTaskChildren(acc: (bool, string), children: seq<Inline>): (bool, string)
    decreases |children|
  {
    if |children| == 0 then acc else FoldTaskChildren(Step(acc, children[0]), children[1..])
  }

  /** The `checked` attribute of the last checkbox child, if any. */
  function LastCheckbox(children: seq<Inline>): Option<bool>
    decreases |children|
  {
    if |children| == 0 then None
    else
      var last := children[|children| - 1];
      if last.kind == "checkbox_input" then Some(CheckedAttr(last)) else LastCheckbox(children[..|children| - 1])
  }

  /** The concatenated contents of the non-checkbox children, markers removed. */
  function ChildText(children: seq<Inline>): string
    decreases |children|
  {
    if |children| == 0 then "" else ChildText(children[..|children| - 1]) + Piece(children[|children| - 1])
  }

  /** The loop leaves the state of the last checkbox (or the initial state when
      there is none) and the text of all other children in order. */
  lemma {:induction false} FoldTaskChildrenMeaning(acc: (bool, string), children: seq<Inline>)
    ensures FoldTaskChildren(acc, children) == (LastCheckbox(children).GetOr(acc.0), acc.1 + ChildText(children))
    decreases |children|
  {
    if |children| == 0 {
      assert acc.1 + "" == acc.1;
    } else {
      var n := |children| - 1;
      var init, last := children[..n], children[n];
      assert init + [last] == children;
      calc {
        FoldTaskChildren(acc, children);
        { FoldSnoc(acc, init, last); }
        Step(FoldTaskChildren(acc, init), last);
        { FoldTaskChildrenMeaning(acc, init); }
        Step((LastCheckbox(init).GetOr(acc.0), acc.1 + ChildText(init)), last);
        { MeaningSnoc(acc, init, last); }
        (LastCheckbox(children).GetOr(acc.0), acc.1 + ChildText(children));
      }
    }
  }

  lemma MeaningSnoc(acc: (bool, string), init: seq<Inline>, last: Inline)
    ensures Step((LastCheckbox(init).GetOr(acc.0), acc.1 + ChildText(init)), last)
         == (LastCheckbox(init + [last]).GetOr(acc.0), acc.1 + ChildText(init + [last]))
  {
    var children := init + [last];
    assert children[..|children| - 1] == init;
    assert acc.1 + ChildText(children) == (acc.1 + ChildText(init)) + Piece(last);
  }

  lemma {:induction false} FoldSnoc(acc: (bool, string), init: seq<Inline>, last: Inline)
    ensures FoldTaskChildren(acc, init + [last]) == Step(FoldTaskChildren(acc, init), last)
    decreases |init|
  {
    if |init| == 0 {
      assert init + [last] == [last];
    } else {
      assert (init + [last])[1..] == init[1..] + [last];
      FoldSnoc(Step(acc, init[0]), init[1..], last);
    }
  }

  /** Checked state and text of a task item. String content is matched against
      the marker; only content tokens without string content use their children. */
  function TaskState(content: Option<Token>): (r: (bool, string))
    ensures content.Some? && content.value.content.Some? ==>
      var c := content.value.content.value;
      && (MatchMarker(c).None? ==> r == (false, c))
      && (MatchMarker(c).Some? ==> r == (MatchMarker(c).value.checked, c[MatchMarker(c).value.length..]))
    ensures content.Some? && content.value.content.None? && content.value.children.Some? ==>
      var cs := content.value.children.value;
      r == (LastCheckbox(cs).GetOr(false), ChildText(cs))
    ensures content.None? || (content.value.content.None? && content.value.children.None?) ==> r == (false, "")
  {
    if content.Some? && content.value.content.Some? then
      var c := content.value.content.value;
      match MatchMarker(c)
      case Some(m) => (m.checked, c[m.length..])
      case None => (false, c)
    else if content.Some? && content.value.children.Some? then
      var cs := content.value.children.value;
      FoldTaskChildrenMeaning((false, ""), cs);
      assert "" + ChildText(cs) == ChildText(cs);
      FoldTaskChildren((false, ""), cs)
    else (false, "")
  }

  /** Ballot box with or without check, each followed by a space. */
  function Glyph(checked: bool): string {
    if checked then "\U{2611} " else "\U{2610} "
  }

  /** Level of a task item: read from the list token's indentation whenever it
      has one, whatever its type. */
  function TaskLevel(open: Token): (level: int)
    ensures level >= 1
    ensures open.content.None? ==> level == 1
    ensures open.content.Some? ==> 2 * (level - 1) <= |open.content.value| < 2 * level
  {
    if open.content.Some? then LevelOfIndent(open.content.value) else 1
  }

  datatype TaskError = DocumentNotSet

  /** One call of the converter: the paragraph is appended to the document with a
      single run of glyph and text and the item's hanging indentation. */
  function Convert(doc: Option<Document>, open: Token, content: Option<Token>): (r: Result<(Document, Paragraph), TaskError>)
    ensures doc.None? ==> r == Failure(DocumentNotSet)
    ensures doc.Some? ==> r.Success?
    ensures r.Success? ==>
      var (d, p) := r.value;
      var (checked, text) := TaskState(content);
      && d.paragraphs == doc.value.paragraphs + [p]
      && d.styles == doc.value.styles
      && p.runs == [Run(Glyph(checked) + text, Plain)]
      && p.style.None? && p.numbering.None?
      && p.leftIndent == Some(IndentStep * (TaskLevel(open) - 1))
      && p.firstLineIndent == Some(-IndentStep)
  {
    if doc.None? then Failure(DocumentNotSet)
    else
      var (checked, text) := TaskState(content);
      var shell := EmptyParagraph.(runs := [Run(Glyph(checked) + text, Plain)]);
      var level := TaskLevel(open);
      HangingIndentWins(shell, [], level);
      assert [] + HangingIndentWrites(level) == HangingIndentWrites(level);
      var p := ApplyIndents(shell, HangingIndentWrites(level));
      Success((doc.value.(paragraphs := doc.value.paragraphs + [p]), p))
  }

  /** `[ ] text` and `[x] text` become the matching ballot box followed by the
      text, with no other marker text left. */
  lemma TaskMarkerReplaced(doc: Document, open: Token, checked: bool, text: string)
    requires text == [] || !IsSpace(text[0])
    ensures Convert(Some(doc), open, Some(Token(None, Some(['[', MarkChar(checked), ']', ' '] + text), None))).value.1.runs
         == [Run(Glyph(checked) + text, Plain)]
  {
    var c := ['[', MarkChar(checked), ']', ' '] + text;
    MarkerRecognised("", checked, " ", text);
    assert "" + ['[', MarkChar(checked), ']'] + " " + text == c;
    assert c[4..] == text;
    assert TaskState(Some(Token(None, Some(c), None))) == (checked, text);
  }

  /** `[X] a` is no marker: it is kept verbatim behind an unchecked box. */
  lemma UpperCaseMarkerKept(doc: Document, open: Token)
    ensures Convert(Some(doc), open, Some(Token(None, Some("[X] a"), None))).value.1.runs == [Run("\U{2610} [X] a", Plain)]
  {
    UpperCaseIsNoMarker();
    assert TaskState(Some(Token(None, Some("[X] a"), None))) == (false, "[X] a");
    assert Glyph(false) + "[X] a" == "\U{2610} [X] a";
  }

  /** Concatenated text of a paragraph's runs. */
  function ParagraphText(runs: seq<Run>): string
  {
    if |runs| == 0 then "" else runs[0].text + ParagraphText(runs[1..])
  }

  /** `_add_checkbox`: prefixes "√ " (checked) or "× " (unchecked) to the first
      run's text, adding an empty run first when there is none. */
  function AddCheckbox(p: Option<Paragraph>, checked: bool): (r: Option<Paragraph>)
    ensures p.None? ==> r.None?
    ensures p.Some? ==> r.Some?
    ensures p.Some? ==>
      var (before, after) := (p.value, r.value);
      var prefix := if checked then "\U{221A} " else "\U{D7} ";
      && after == before.(runs := after.runs)
      && |after.runs| == (if |before.runs| == 0 then 1 else |before.runs|)
      && after.runs[0].text == prefix + (if |before.runs| == 0 then "" else before.runs[0].text)
      && after.runs[0].style == (if |before.runs| == 0 then Plain else before.runs[0].style)
      && after.runs[1..] == (if |before.runs| == 0 then [] else before.runs[1..])
  {
    match p
    case None => None
    case Some(para) =>
      var runs := if |para.runs| == 0 then [Run("", Plain)] else para.runs;
      var prefix := if checked then "\U{221A} " else "\U{D7} ";
      Some(para.(runs := [runs[0].(text := prefix + runs[0].text)] + runs[1..]))
  }

  /** The paragraph's text gains exactly the prefix, in front. */
  lemma AddCheckboxText(p: Paragraph, checked: bool)
    ensures ParagraphText(AddCheckbox(Some(p), checked).value.runs)
         == (if checked then "\U{221A} " else "\U{D7} ") + ParagraphText(p.runs)
  {
    var r := AddCheckbox(Some(p), checked).value.runs;
    var prefix := if checked then "\U{221A} " else "\U{D7} ";
    assert ParagraphText(r) == r[0].text + ParagraphText(r[1..]);
    if |p.runs| > 0 {
      assert ParagraphText(p.runs) == p.runs[0].text + ParagraphText(p.runs[1..]);
    }
  }
}

=== FILE: text.dfy ===
/** String helpers with the semantics of the Python and JavaScript built-ins the
    converters call: whitespace classes, strip, split/join on a separator, prefix
    and suffix tests, substring search and decimal rendering. */
module Text {

  /** Python's `str.isspace`, which is also the class `\s` matches in a `str` regular
      expression and the class `str.strip()` and `str.split()` remove. */
  predicate IsSpace(c: char) {
    || ('\t' <= c <= '\r')
    || ('\U{1C}' <= c <= '\U{1F}')
    || c == ' '
    || c == '\U{85}'
    || c == '\U{A0}'
    || c == '\U{1680}'
    || ('\U{2000}' <= c <= '\U{200A}')
    || c == '\U{2028}'
    || c == '\U{2029}'
    || c == '\U{202F}'
    || c == '\U{205F}'
    || c == '\U{3000}'
  }

  predicate AllSpace(s: string) {
    forall i :: 0 <= i < |s| ==> IsSpace(s[i])
  }

  predicate IsDigit(c: char) {
    '0' <= c <= '9'
  }

  predicate StartsWith(s: string, prefix: string) {
    |prefix| <= |s| && s[..|prefix|] == prefix
  }

  predicate EndsWith(s: string, suffix: string) {
    |suffix| <= |s| && s[|s| - |suffix|..] == suffix
  }

  /** Python's `needle in s` on strings. */
  predicate Contains(s: string, needle: string) {
    exists i :: 0 <= i <= |s| - |needle| && OccursAt(s, needle, i)
  }

  predicate OccursAt(s: string, needle: string, i: int)
    requires 0 <= i <= |s| - |needle|
  {
    s[i..i + |needle|] == needle
  }

  /** Every character of `s` from index `i` up to `j` is whitespace. */
  predicate SpacesBetween(s: string, i: int, j: int)
    requires 0 <= i <= j <= |s|
  {
    forall k :: i <= k < j ==> IsSpace(s[k])
  }

  /** End of the whitespace run of `s` that starts at `i`: what `\s*` consumes
      there and what `lstrip` drops when `i` is 0. */
  function SpaceEnd(s: string, i: nat): (j: nat)
    requires i <= |s|
    ensures i <= j <= |s|
    ensures SpacesBetween(s, i, j)
    ensures j == |s| || !IsSpace(s[j])
    decreases |s| - i
  {
    if i == |s| || !IsSpace(s[i]) then i else SpaceEnd(s, i + 1)
  }

  /** The run ends exactly at the end of an all-whitespace stretch followed by a
      non-whitespace character or the end of the string. */
  lemma {:induction false} SpaceEndAt(s: string, i: nat, j: nat)
    requires i <= j <= |s|
    requires SpacesBetween(s, i, j)
    requires j == |s| || !IsSpace(s[j])
    ensures SpaceEnd(s, i) == j
    decreases j - i
  {
    if i < j {
      SpaceEndAt(s, i + 1, j);
    }
  }

  /** Start of the whitespace run that ends at `hi`, not before `lo`: what
      `rstrip` drops when `hi` is the length. */
  function SpaceStart(s: string, lo: nat, hi: nat): (j: nat)
    requires lo <= hi <= |s|
    ensures lo <= j <= hi
    ensures SpacesBetween(s, j, hi)
    ensures j == lo || !IsSpace(s[j - 1])
    decreases hi - lo
  {
    if hi == lo || !IsSpace(s[hi - 1]) then hi else SpaceStart(s, lo, hi - 1)
  }

  lemma {:induction false} SpaceStartAt(s: string, lo: nat, j: nat, hi: nat)
    requires lo <= j <= hi <= |s|
    requires SpacesBetween(s, j, hi)
    requires j == lo || !IsSpace(s[j - 1])
    ensures SpaceStart(s, lo, hi) == j
    decreases hi - j
  {
    if j < hi {
      SpaceStartAt(s, lo, j, hi - 1);
    }
  }

  /** Where Python's `str.strip()` cuts: only whitespace lies outside the bounds,
      and unless nothing is left the kept part starts and ends with a
      non-whitespace character. */
  function StripBounds(s: string): (b: (nat, nat))
    ensures b.0 <= b.1 <= |s|
    ensures SpacesBetween(s, 0, b.0) && SpacesBetween(s, b.1, |s|)
    ensures b.0 == b.1 || (!IsSpace(s[b.0]) && !IsSpace(s[b.1 - 1]))
  {
    var i := SpaceEnd(s, 0);
    (i, SpaceStart(s, i, |s|))
  }

  /** Python's `str.strip()`. */
  function Strip(s: string): (r: string)
  {
    s[StripBounds(s).0..StripBounds(s).1]
  }

  /** Text that neither begins nor ends with whitespace is its own strip. */
  lemma StripStripped(t: string)
    requires t == [] || (!IsSpace(t[0]) && !IsSpace(t[|t| - 1]))
    ensures Strip(t) == t
  {
    if t != [] {
      SpaceEndAt(t, 0, 0);
      SpaceStartAt(t, 0, |t|, |t|);
    }
  }

  /** Leading whitespace does not change the strip. */
  lemma StripAfterSpace(c: char, t: string)
    requires IsSpace(c)
    ensures Strip([c] + t) == Strip(t)
  {
    var s := [c] + t;
    var (i, j) := StripBounds(t);
    forall k | 0 <= k < i + 1
      ensures IsSpace(s[k])
    {
      if k > 0 {
        assert s[k] == t[k - 1];
      }
    }
    assert i + 1 == |s| || s[i + 1] == t[i];
    SpaceEndAt(s, 0, i + 1);
    forall k | j + 1 <= k < |s|
      ensures IsSpace(s[k])
    {
      assert s[k] == t[k - 1];
    }
    if j > i {
      assert s[j] == t[j - 1];
    }
    SpaceStartAt(s, i + 1, j + 1, |s|);
    assert s[i + 1..j + 1] == t[i..j];
  }

  /** Python's `str.lstrip(c)` for a single character `c`. */
  function LStripChar(s: string, c: char): (r: string)
    ensures |r| <= |s| && r == s[|s| - |r|..]
    ensures forall i :: 0 <= i < |s| - |r| ==> s[i] == c
    ensures r == [] || r[0] != c
  {
    if |s| > 0 && s[0] == c then LStripChar(s[1..], c) else s
  }

  /** Number of leading characters of `s` that are not whitespace. */
  function WordLength(s: string): (n: nat)
    ensures n <= |s|
    ensures forall i :: 0 <= i < n ==> !IsSpace(s[i])
    ensures n == |s| || IsSpace(s[n])
  {
    if |s| == 0 || IsSpace(s[0]) then 0 else 1 + WordLength(s[1..])
  }

  /** Python's `"x".join(parts)`. */
  function Join(parts: seq<string>, sep: char): string
  {
    if |parts| == 0 then ""
    else if |parts| == 1 then parts[0]
    else parts[0] + [sep] + Join(parts[1..], sep)
  }

  /** Index of the first occurrence of `c` in `s`. */
  function IndexOf(s: string, c: char): (i: nat)
    requires c in s
    ensures i < |s| && s[i] == c
    ensures forall j :: 0 <= j < i ==> s[j] != c
  {
    if s[0] == c then 0 else 1 + IndexOf(s[1..], c)
  }

  /** The first occurrence is the only position holding `c` with no `c` before it. */
  lemma IndexOfUnique(s: string, c: char, k: nat)
    requires k < |s| && s[k] == c
    requires forall j :: 0 <= j < k ==> s[j] != c
    ensures IndexOf(s, c) == k
  {
  }

  /** Python's `s.split(sep)` for a one-character separator. */
  function Split(s: string, sep: char): (parts: seq<string>)
    ensures |parts| >= 1
    ensures forall k :: 0 <= k < |parts| ==> sep !in parts[k]
    ensures Join(parts, sep) == s
    decreases |s|
  {
    if sep !in s then [s]
    else
      var i := IndexOf(s, sep);
      var rest := Split(s[i + 1..], sep);
      assert s == s[..i] + [sep] + s[i + 1..];
      [s[..i]] + rest
  }

  /** Splitting undoes joining whenever no part contains the separator. */
  lemma {:induction false} SplitJoin(parts: seq<string>, sep: char)
    requires |parts| >= 1
    requires forall k :: 0 <= k < |parts| ==> sep !in parts[k]
    ensures Split(Join(parts, sep), sep) == parts
  {
    if |parts| == 1 {
    } else {
      var tail := Join(parts[1..], sep);
      var s := parts[0] + [sep] + tail;
      assert sep !in parts[0];
      assert s[|parts[0]|] == sep;
      assert sep in s;
      assert forall j :: 0 <= j < |parts[0]| ==> s[j] == parts[0][j];
      IndexOfUnique(s, sep, |parts[0]|);
      var i := IndexOf(s, sep);
      assert s[..i] == parts[0];
      assert s[i + 1..] == tail;
      SplitJoin(parts[1..], sep);
    }
  }

  function DigitChar(d: nat): (c: char)
    requires d < 10
    ensures IsDigit(c)
  {
    ('0' as int + d) as char
  }

  function DigitValue(c: char): nat
    requires IsDigit(c)
  {
    (c as int - '0' as int) as nat
  }

  /** Python's `str(n)` for a natural number: its decimal digits. */
  function NatToString(n: nat): (s: string)
    ensures |s| >= 1
    ensures forall i :: 0 <= i < |s| ==> IsDigit(s[i])
    ensures n > 0 ==> s[0] != '0'
  {
    if n < 10 then [DigitChar(n)] else NatToString(n / 10) + [DigitChar(n % 10)]
  }

  /** The value of a string of decimal digits. */
  function ParseDigits(s: string): nat
    requires forall i :: 0 <= i < |s| ==> IsDigit(s[i])
  {
    if |s| == 0 then 0 else 10 * ParseDigits(s[..|s| - 1]) + DigitValue(s[|s| - 1])
  }

  /** Reading back the decimal rendering gives the number again. */
  lemma {:induction false} ParseNatToString(n: nat)
    ensures ParseDigits(NatToString(n)) == n
  {
    if n >= 10 {
      var s := NatToString(n);
      assert s[..|s| - 1] == NatToString(n / 10);
      ParseNatToString(n / 10);
    }
  }

  /** Distinct numbers render as distinct strings. */
  lemma NatToStringInjective(m: nat, n: nat)
    requires NatToString(m) == NatToString(n)
    ensures m == n
  {
    ParseNatToString(m);
    ParseNatToString(n);
  }

  /** JavaScript's `toLowerCase` restricted to ASCII letters. */
  function LowerChar(c: char): (d: char)
    ensures 'A' <= c <= 'Z' ==> d as int == c as int + 32
    ensures !('A' <= c <= 'Z') ==> d == c
  {
    if 'A' <= c <= 'Z' then (c as int + 32) as char else c
  }

  function Lower(s: string): (r: string)
    ensures |r| == |s|
    ensures forall i :: 0 <= i < |s| ==> r[i] == LowerChar(s[i])
  {
    if |s| == 0 then "" else [LowerChar(s[0])] + Lower(s[1..])
  }
}

=== FILE: wrappers.dfy ===
/** Option and Result values, used where the converters probe for optional
    token attributes or raise an error. */
module Wrappers {

  datatype Option<+T> = None | Some(value: T) {

    /** The carried value, or `default` when there is none. */
    function GetOr(default: T): T {
      match this
      case Some(v) => v
      case None => default
    }
  }

  datatype Result<+R, +E> = Success(value: R) | Failure(error: E)
}
